=== FILE: README.md ===
# Venue / Artist / Show listing — a Dafny model of the data layer

The application lists music venues and artists, searches them by name, shows
each one's past and upcoming shows, and lets users create and edit venues and
artists and create shows. This project models the part of it that is logic
rather than web plumbing: the three record kinds and the store that holds
them (`models.py`), and the queries and mutations the request handlers run
against that store (`app.py`).

- **Store.** `Models.Store` holds three tables as maps from integer id to an
  immutable record (`Venue`, `Artist`, `Show`) plus the next value of each
  table's id sequence. Nullable columns are `Option`s. `genres` is a
  sequence and the seeking flags are booleans, so neither can be null.
  `Models.Valid` is what the database guarantees of every committed state:
  every show's `venue_id` and `artist_id` name existing records, every id
  was issued by its sequence within the 32-bit `integer` range, and every
  text value holds no NUL character and fits its `String(120)` or
  `String(500)` column.
- **Queries** (`Queries`) take the store, the instant `now` and the order in
  which the database scans each table. A scan is any sequence that lists
  every key once (`Collections.IsScanOf`), so each contract holds for every
  order in which the database returns rows. One order is fixed by the
  model: the `areas` groups come in the order in which their places first
  appear in the venue scan (see "Left out").
- **Mutations** (`Mutations`) are functions from the old store to
  `Result<Store>`. On success the result is the committed state. On failure
  there is no new state, which is the rollback. The parameter `available`
  says whether the database could run the transaction at all.
- **Search** is modelled as PostgreSQL's `ILIKE '%term%'`, with `%`, `_` and
  the `\` escape (`Text.ILike`) and ASCII case folding. For terms without
  those three characters, this is proved to be case-insensitive substring
  search.
- **Deletion** is derived from the `cascade="all, delete"` relationships in
  `models.py`. Removing a venue or an artist removes every show that names
  it. The `delete_venue` handler in `app.py` is an empty stub and is not
  modelled.

The code uses two different boundaries for "upcoming":
- The listing and search count a show as upcoming when `start_time > now`.
- The detail pages call a show past when `start_time < now` and upcoming
  otherwise.
- So a show starting exactly at `now` is upcoming on the detail page but not
  counted in `num_upcoming_shows` (`Queries.BoundaryShowsDiffer`).
- The search term `''` matches every record whose name is not null.

There are two deliberate departures from the code:
- `show_venue` and `show_artist` dereference the result of `query.get`
  without checking it, so an unknown id raises an error. The model returns
  `NotFound` instead.
- `edit_venue_submission` assigns a one-element tuple to the venue's name
  (app.py:338, see "Findings"). `Mutations.EditVenue` stores the submitted
  string instead; `Mutations.VenueNameAssignedAsWritten` models the line as
  it stands.

## Model

| member | source | states |
|---|---|---|
| `Models.EmptyStore` | models.py:7-67 | A fresh database has empty tables, every id sequence at 1, and satisfies the store invariant |
| `Models.ShowHasOneOwnerOfEachKind` | models.py:62-67 | A show is in the `shows` of exactly one venue and one artist: the ones its foreign keys name |
| `Models.Cascade` | models.py:24-27 | Removing a record removes exactly the shows that name it, keeps every other row and all three id sequences unchanged, and preserves the invariant |
| `Models.DeleteVenue` | models.py:24-27 | Deleting a venue fails with NotFound for an unknown id; otherwise the venue and all its shows go, nothing else changes (other rows and the id sequences alike), and no show is left pointing at it |
| `Models.DeleteArtist` | models.py:47-50 | Deleting an artist fails with NotFound for an unknown id; otherwise the artist and all its shows go, nothing else changes (other rows and the id sequences alike), and no orphan show remains |
| `Models.DeleteVenueShowCount` | models.py:23-27 | Deleting a venue that holds N shows shrinks the show table by exactly N |
| `Collections.Filter` | app.py:74 | A filtering comprehension keeps exactly the elements that satisfy the condition, never grows the list, and introduces no repetition |
| `Collections.FilterAppend` | app.py:74 | Filtering a concatenation is the concatenation of the filtered parts; with the one-element case this fixes the result, in order and with repetitions |
| `Text.SearchPatternMeansSubstring` | app.py:90 | For a term without `%`, `_` or `\`, `name ILIKE '%term%'` holds exactly when the lower-cased term is a substring of the lower-cased name |
| `Text.EmptyTermMatchesAll` | app.py:89-90 | The default term `''` matches every name |
| `Text.HopFindsTheMusicalHop` | app.py:86-87 | Searching "Hop" or "hop" finds "The Musical Hop" |
| `FormData.Checked` | app.py:173 | A seeking flag is true exactly when the first value sent for it is the string `'y'`; an absent field gives false |
| `FormData.ParseInteger` | app.py:437-438 | A form string read into an `integer` column yields a value only when the text ends in a digit, and the value always lies in the 32-bit range; `ParseSpelled` and `ParseOnlySpelled` characterise it exactly |
| `FormData.ParseSpelled` | app.py:437-438 | Text made of an optional sign (a minus only before a non-positive number), any leading zeros and the digits of a 32-bit number is read as that number |
| `FormData.ParseOnlySpelled` | app.py:437-438 | Conversely, any text read as `n` is an optional sign matching `n`, leading zeros and the digits of `n`'s magnitude |
| `FormData.ParseRefusesNonDigit` | app.py:437-438 | Text with a character other than a digit after the optional sign is not an integer |
| `FormData.ParseFormatRoundTrip` | app.py:437-438 | Every 32-bit id sent as decimal text is read back by the integer column as the same id |
| `Queries.ShowList` | app.py:117 | A record's `shows` relationship lists each show whose foreign key names the record exactly once, and no other show |
| `Queries.NumUpcomingShows` | app.py:74 | `num_upcoming_shows` equals the number of the record's shows whose start is strictly after `now` |
| `Queries.UpcomingNeverGrows` | app.py:101 | As `now` advances, a record's upcoming count never increases |
| `Queries.Summaries` | app.py:71-75 | Each summary entry carries an existing record's id, its own name and its upcoming count, one entry per requested id, in order |
| `Queries.DistinctPlaces` | app.py:63 | The distinct query yields each (city, state) present among the venues exactly once, and no other |
| `Queries.LocalVenues` | app.py:67-75 | A group's venue list holds every venue at that place once, only such venues, each with its own name and upcoming count |
| `Queries.Areas` | app.py:60-81 | Group keys are pairwise distinct, they are exactly the (city, state) pairs of the stored venues, and each group lists that place's venues |
| `Queries.AreaHoldsItsPlace` | app.py:69-70 | A group lists a venue exactly when the venue's city and state equal the group's, and lists it once |
| `Queries.VenueInExactlyOneArea` | app.py:65-81 | Every venue appears in exactly one group |
| `Queries.Search` | app.py:89-102 | The search query (run only for a term without NUL) returns exactly the records whose non-null name matches `'%term%'`, each once, with `count` equal to the length of `data` |
| `Queries.SearchVenues` | app.py:84-106 | `search_venues` fails exactly when the term holds NUL, which the database refuses; otherwise it lists exactly the venues whose name matches the term, each once with its upcoming count, and `count` equals the number listed |
| `Queries.SearchArtists` | app.py:217-239 | `search_artists` fails exactly when the term holds NUL, which the database refuses; otherwise it lists exactly the artists whose name matches the term, each once with its upcoming count, and `count` equals the number listed |
| `Queries.SearchFindsSubstrings` | app.py:222-223 | For a plain term, a record is found exactly when its name contains the term, ignoring case |
| `Queries.EmptySearchFindsAllNamed` | app.py:222-228 | The default term finds every record with a non-null name, and `count` is the number of such records |
| `Queries.SplitShows` | app.py:117-128 | The detail loop's two lists equal the shows starting before `now` and the remaining shows, each in scan order |
| `Queries.SplitIsPartition` | app.py:250-261 | Past holds exactly the shows before `now` and upcoming exactly the rest; they are disjoint and together hold every show of the record once |
| `Queries.EntryOf` | app.py:118-123 | A detail entry names the show's own other party (its artist on a venue page, its venue on an artist page), with that party's current name and image and the show's start time |
| `Queries.EntriesListed` | app.py:117-128 | A list of entries built from exactly a given set of shows contains exactly the entries of those shows |
| `Queries.SplitHoldsSets` | app.py:117-128 | The past half holds exactly the record's shows before `now` and the upcoming half exactly the rest, each as many times as there are such shows |
| `Queries.TimelineOf` | app.py:114-146 | The past list is the entries of one scan of the record's shows starting before `now`, each show once, and the upcoming list the entries of one scan of its other shows. Each count equals its list's length and the size of its set of shows, and the two counts sum to the record's number of shows |
| `Queries.VenueDetail` | app.py:108-149 | An unknown venue id gives NotFound; otherwise the page shows the stored venue and the timeline of exactly its own shows, whose counts add up to the venue's shows |
| `Queries.ArtistDetail` | app.py:241-281 | An unknown artist id gives NotFound; otherwise the page shows the stored artist and the timeline of exactly its own shows, whose counts add up to the artist's shows |
| `Queries.BoundaryShowsDiffer` | app.py:125 | The listing's upcoming count (`>`) never exceeds the detail page's (not `<`), and they are equal exactly when no show starts at `now` |
| `Queries.ListArtists` | app.py:204-215 | The artist listing has one entry per artist, with distinct ids and each artist's own name |
| `Queries.RowOf` | app.py:413-420 | A show listing entry carries the show's own keys and start time and the names of the venue and artist those keys name |
| `Queries.ListShows` | app.py:407-422 | The show listing has exactly one entry per show, and every show has its entry |
| `Mutations.VenueFromForm` | app.py:165-175 | The venue built from a form has an empty genre list when none is sent and is seeking talent exactly when the form sent `'y'` |
| `Mutations.ArtistFromForm` | app.py:377-386 | The artist built from a form has an empty genre list when none is sent and is seeking a venue exactly when the form sent `'y'` |
| `Mutations.FormOfVenueRoundTrip` | app.py:165-175 | Every field of a venue's form lands in the matching column: reading the form back yields the venue |
| `Mutations.FormOfArtistRoundTrip` | app.py:377-386 | Every field of an artist's form lands in the matching column: reading the form back yields the artist |
| `Mutations.InsertVenueKeepsValid` | models.py:10 | Inserting a storable venue under the next id of a sequence that is not exhausted keeps the store invariant |
| `Mutations.InsertArtistKeepsValid` | models.py:34 | Inserting a storable artist under the next id of a sequence that is not exhausted keeps the store invariant |
| `Mutations.CreateVenue` | app.py:164-189 | Creating a venue adds exactly one venue with the submitted fields under the venue sequence's next id and advances that sequence; nothing else changes. It fails on a value the database refuses, or once the venue sequence has passed the largest `integer` |
| `Mutations.CreateArtist` | app.py:376-400 | Creating an artist adds exactly one artist with the submitted fields under the artist sequence's next id and advances that sequence; nothing else changes. It fails on a value the database refuses, or once the artist sequence has passed the largest `integer` |
| `Mutations.EditArtist` | app.py:297-319 | Editing fails with NotFound for an unknown id. Otherwise every field is replaced by the form's, the id is kept, and no other record and no id sequence changes |
| `Mutations.EditVenue` | app.py:335-358 | As for artists, and the stored name is the submitted string |
| `Mutations.CreateShow` | app.py:435-452 | A show is added exactly when all three values are present and typed, the show sequence is not exhausted, and both ids exist. An unknown artist or venue is a constraint violation, and a success adds only that show and advances only the show sequence |
| `Mutations.CreateVenueThenDetail` | app.py:164-177 | A venue created from a form reads back on its page with exactly the submitted fields and no past or upcoming shows |
| `Mutations.EditVenueReplacesEveryField` | app.py:338-348 | An edit is a full replace: afterwards the venue is exactly the one the form describes |
| `Mutations.EditArtistReplacesEveryField` | app.py:300-309 | An edit is a full replace: afterwards the artist is exactly the one the form describes |
| `Mutations.CreateShowUpcomingCount` | app.py:436-440 | A new show raises its venue's upcoming count by one exactly when it starts after `now`, and leaves other venues' counts alone |
| `Mutations.DeleteVenueLeavesNoShowListed` | models.py:24-27 | After a venue is deleted, the show listing contains none of its shows |
| `Mutations.VenueNameAssignedAsWritten` | app.py:338 | The line as written assigns a one-element tuple to the venue's name |
| `Mutations.VenueNameAsWrittenIsNotTheName` | app.py:338 | For every form, the value assigned as written is neither the submitted string nor null |

## Left out

- Routing, template rendering, flash messages, redirects, the 404/500
  handlers, logging set-up and server launch: these are I/O around the model.
- The GET handlers that only render the create and edit forms.
- `format_datetime` and the `strftime` display strings: a start time is kept
  as an integer instant.
- Parsing the `start_time` form string: a library parser. `ShowSubmission`
  takes the parsed instant, or nothing when the value is missing or
  unreadable.
- Reading an id from text is modelled as an optional sign followed by
  decimal digits within 32 bits. Surrounding whitespace, which every
  PostgreSQL version accepts in `integer` input, is not modelled; nor are
  underscores and `0x`/`0o`/`0b` prefixes, which only recent versions
  accept.
- Case-insensitivity is ASCII lower-casing. The database's locale-dependent
  folding of other letters is not modelled.
- A `String(n)` column refuses longer text. PostgreSQL's silent truncation
  of excess trailing spaces is not modelled.
- The session lifecycle (`close`), migrations and how the database executes
  `DISTINCT` and `ILIKE`: only their results are modelled.
- `datetime.now()` is evaluated once per show in the source. The model uses
  one `now` per request.
- A PostgreSQL sequence value used by a failed insert is not given back. The
  model leaves the sequence unchanged on failure, so the id a later success
  receives may be lower than the database's.
- After a successful commit, the create and edit handlers build their flash
  message as `'...' + request.form.get('name')`. That raises an error when
  no name was sent. The record stays committed, and the model reports this
  as success.
- `delete_venue` in `app.py` is an unimplemented stub returning `None`.
  `DeleteVenue` and `DeleteArtist` model only what the declared cascade does
  once a record is deleted.
- `Queries.Areas`: the source fetches the venues and the distinct places
  in two separate queries, and the distinct query usually returns the places
  sorted. The model orders the groups by where each place first appears in
  the venue scan. No contract depends on the order of the groups.
- Concurrent requests: each mutation is one transaction, and the database
  serialises them.
- Which failure kind is reported when several apply (for example an
  unavailable database and an unknown id): the model checks availability
  first, then the id, then the values, then the sequence, then the foreign
  keys. The source catches every failure the same way and rolls back.

## Findings

| source | as written | input that shows it | evidently intended | confidence | as-written member | corrected member |
|---|---|---|---|---|---|---|
| app.py:338 | `venue.name = request.form.get('name'),` — the trailing comma assigns the one-element tuple `(name,)` | any venue edit, e.g. a form with name `The Musical Hop` | assign the submitted string itself, as the artist handler does at app.py:300 | not executed; what the tuple becomes in the database (the string, an error, or something else) depends on the database driver | `Mutations.VenueNameAssignedAsWritten` | `Mutations.EditVenue` |

=== FILE: collections.dfy ===
/** Sequences read from a table scan, filtering, and how counts relate to sets. */
module Collections {

  /** No element occurs twice. */
  predicate Distinct<T(==)>(xs: seq<T>) {
    forall i, j :: 0 <= i < j < |xs| ==> xs[i] != xs[j]
  }

  /** The set of elements of a sequence. */
  function Elements<T>(xs: seq<T>): set<T> {
    set x | x in xs
  }

  /** `xs` lists every key of a table exactly once: one full scan of the table,
      in whatever order the database yields its rows. */
  ghost predicate IsScanOf<T(!new)>(xs: seq<T>, keys: set<T>) {
    Distinct(xs) && forall x :: x in xs <==> x in keys
  }

  /** The elements of `xs` that satisfy `keep`, in their original order
      (a Python list comprehension with an `if` clause). */
  function Filter<T(!new)>(xs: seq<T>, keep: T -> bool): (r: seq<T>)
    ensures |r| <= |xs|
    ensures forall x :: x in r <==> x in xs && keep(x)
    ensures Distinct(xs) ==> Distinct(r)
  {
    if xs == [] then []
    else if keep(xs[0]) then
      var rest := Filter(xs[1..], keep);
      assert xs[0] !in xs[1..] <== Distinct(xs);
      [xs[0]] + rest
    else Filter(xs[1..], keep)
  }

  /** Filtering one element keeps it exactly when it satisfies `keep`. */
  lemma FilterOne<T(!new)>(x: T, keep: T -> bool)
    ensures Filter([x], keep) == if keep(x) then [x] else []
  {
    assert [x][1..] == [];
  }

  /** Filtering a sequence is filtering its head, then its tail. */
  lemma FilterCons<T(!new)>(x: T, rest: seq<T>, keep: T -> bool)
    ensures Filter([x] + rest, keep) == Filter([x], keep) + Filter(rest, keep)
  {
    var zs := [x] + rest;
    assert zs[0] == x && zs[1..] == rest;
    FilterOne(x, keep);
  }

  /** Filtering distributes over concatenation. With `FilterOne` this fixes
      `Filter` completely: the kept elements, repetitions included, stay in
      their original order. */
  lemma {:induction false} FilterAppend<T(!new)>(xs: seq<T>, ys: seq<T>, keep: T -> bool)
    ensures Filter(xs + ys, keep) == Filter(xs, keep) + Filter(ys, keep)
  {
    if xs == [] {
      assert xs + ys == ys;
    } else {
      var x, rest := xs[0], xs[1..];
      assert xs == [x] + rest;
      calc {
        Filter(xs + ys, keep);
        { assert xs + ys == [x] + (rest + ys); }
        Filter([x] + (rest + ys), keep);
        { FilterCons(x, rest + ys, keep); }
        Filter([x], keep) + Filter(rest + ys, keep);
        { FilterAppend(rest, ys, keep); }
        Filter([x], keep) + (Filter(rest, keep) + Filter(ys, keep));
        (Filter([x], keep) + Filter(rest, keep)) + Filter(ys, keep);
        { FilterCons(x, rest, keep); }
        Filter(xs, keep) + Filter(ys, keep);
      }
    }
  }

  /** The complement of a predicate. */
  function Not<T>(keep: T -> bool): T -> bool {
    x => !keep(x)
  }

  /** Filtering by a predicate and by its complement splits a sequence in two. */
  lemma {:induction false} FilterPartition<T(!new)>(xs: seq<T>, keep: T -> bool)
    ensures multiset(Filter(xs, keep)) + multiset(Filter(xs, Not(keep))) == multiset(xs)
    ensures |Filter(xs, keep)| + |Filter(xs, Not(keep))| == |xs|
  {
    if xs != [] {
      FilterPartition(xs[1..], keep);
      assert xs == [xs[0]] + xs[1..];
      assert multiset(xs) == multiset{xs[0]} + multiset(xs[1..]);
    }
  }

  /** A sequence without repetitions has as many elements as its set. */
  lemma {:induction false} DistinctCount<T>(xs: seq<T>)
    requires Distinct(xs)
    ensures |Elements(xs)| == |xs|
  {
    if xs != [] {
      DistinctCount(xs[1..]);
      assert Elements(xs) == {xs[0]} + Elements(xs[1..]);
      assert xs[0] !in Elements(xs[1..]);
    }
  }

  /** A scan lists as many keys as the table has. */
  lemma ScanCount<T(!new)>(xs: seq<T>, keys: set<T>)
    requires IsScanOf(xs, keys)
    ensures |xs| == |keys|
  {
    DistinctCount(xs);
    assert Elements(xs) == keys;
  }

  /** A subset is no larger than its superset, and a proper subset is smaller. */
  lemma SubsetCount<T>(a: set<T>, b: set<T>)
    requires a <= b
    ensures |a| <= |b|
    ensures a < b ==> |a| < |b|
  {
    assert b == a + (b - a);
    if a < b {
      var x :| x in b - a;
      assert |b - a| >= 1 by {
        assert {x} <= b - a;
      }
    }
  }

  /** An element of a sequence without repetitions sits at exactly one index. */
  lemma OccursOnce<T>(xs: seq<T>, x: T) returns (k: nat)
    requires Distinct(xs) && x in xs
    ensures k < |xs| && xs[k] == x
    ensures forall i :: 0 <= i < |xs| && xs[i] == x ==> i == k
  {
    k :| 0 <= k < |xs| && xs[k] == x;
  }
}

=== FILE: form_data.dfy ===
/** Submitted form data and the conversions the handlers and the database
    apply to its raw strings. */
module FormData {
  import opened Wrappers
  import opened Models

  /** A submitted HTML form: each field name with the values sent under it,
      in the order they were sent. */
  type Form = map<string, seq<string>>

  /** `request.form.get(key)`: the first value sent under `key`, or nothing. */
  function Get(f: Form, key: string): (r: Option<string>)
    ensures r.Some? <==> key in f && f[key] != []
    ensures r.Some? ==> r.value == f[key][0]
  {
    if key in f && f[key] != [] then Some(f[key][0]) else None
  }

  /** `request.form.getlist(key)`: every value sent under `key`; never null. */
  function GetList(f: Form, key: string): (r: seq<string>)
    ensures key !in f ==> r == []
  {
    if key in f then f[key] else []
  }

  /** `request.form.get(key) == 'y'`: how a check box becomes a boolean. */
  function Checked(f: Form, key: string): (b: bool)
    ensures b <==> key in f && f[key] != [] && f[key][0] == "y"
    ensures key !in f ==> !b
  {
    Get(f, key) == Some("y")
  }

  /** The form field holding `t`: one value, or no value for a null. */
  function Single(t: Option<string>): seq<string> {
    if t.Some? then [t.value] else []
  }

  /** The check box field for `b`: sent as `'y'` when ticked, absent otherwise. */
  function CheckBox(b: bool): seq<string> {
    if b then ["y"] else []
  }

  lemma SingleRoundTrip(f: Form, key: string, t: Option<string>)
    requires key in f && f[key] == Single(t)
    ensures Get(f, key) == t
  {
  }

  lemma CheckBoxRoundTrip(f: Form, key: string, b: bool)
    requires key in f && f[key] == CheckBox(b)
    ensures Checked(f, key) == b
  {
  }

  predicate IsDigit(c: char) {
    '0' <= c <= '9'
  }

  predicate AllDigits(t: string) {
    forall i :: 0 <= i < |t| ==> IsDigit(t[i])
  }

  /** The number a string of decimal digits denotes. */
  function DigitsValue(t: string): nat
    requires AllDigits(t)
    decreases |t|
  {
    if t == [] then 0
    else 10 * DigitsValue(t[..|t| - 1]) + (t[|t| - 1] as int - '0' as int)
  }

  /** The decimal digits of `n`, without leading zeros. */
  function Digits(n: nat): (t: string)
    ensures AllDigits(t) && t != []
    decreases n
  {
    if n < 10 then [('0' as int + n) as char]
    else Digits(n / 10) + [('0' as int + n % 10) as char]
  }

  lemma {:induction false} DigitsRoundTrip(n: nat)
    ensures DigitsValue(Digits(n)) == n
  {
    if n >= 10 {
      DigitsRoundTrip(n / 10);
      var t := Digits(n);
      assert t[..|t| - 1] == Digits(n / 10);
    }
  }

  /** How the database reads a form string bound to an `integer` column:
      an optional sign followed by decimal digits, within 32 bits. Anything
      else, and a missing value, yields no integer. */
  function ParseInteger(raw: Option<string>): (r: Option<int>)
    ensures r.Some? ==> IntegerMin <= r.value <= IntegerMax
    ensures r.Some? ==> raw.Some? && raw.value != [] && raw.value[|raw.value| - 1] in "0123456789"
  {
    if raw.None? then None
    else
      var t := raw.value;
      var signed := t != [] && (t[0] == '-' || t[0] == '+');
      var digits := if signed then t[1..] else t;
      if digits == [] || !AllDigits(digits) then None
      else
        assert digits[|digits| - 1] == t[|t| - 1];
        var v: int := if signed && t[0] == '-' then 0 - DigitsValue(digits) as int else DigitsValue(digits);
        if IntegerMin <= v <= IntegerMax then Some(v) else None
  }

  /** `k` zero digits. */
  function Zeros(k: nat): (t: string)
    ensures |t| == k && AllDigits(t)
  {
    seq(k, _ => '0')
  }

  function Abs(n: int): nat {
    if n < 0 then -n else n
  }

  lemma {:induction false} ZerosValue(k: nat)
    ensures DigitsValue(Zeros(k)) == 0
  {
    if k > 0 {
      ZerosValue(k - 1);
      assert Zeros(k)[..k - 1] == Zeros(k - 1);
    }
  }

  /** Leading zeros do not change the number a digit string denotes. */
  lemma {:induction false} PaddedValue(k: nat, d: string)
    requires AllDigits(d)
    ensures AllDigits(Zeros(k) + d)
    ensures DigitsValue(Zeros(k) + d) == DigitsValue(d)
  {
    var z := Zeros(k) + d;
    if d == [] {
      assert z == Zeros(k);
      ZerosValue(k);
    } else {
      PaddedValue(k, d[..|d| - 1]);
      assert z[..|z| - 1] == Zeros(k) + d[..|d| - 1];
      assert z[|z| - 1] == d[|d| - 1];
    }
  }

  /** A single digit spells its own value. */
  lemma OneDigit(c: char)
    requires IsDigit(c)
    ensures Digits(c as int - '0' as int) == [c]
  {
  }

  /** Appending a digit to a number with no leading zeros appends it to the
      number's digits. */
  lemma AppendDigit(v: nat, c: char)
    requires IsDigit(c) && v > 0
    ensures Digits(10 * v + (c as int - '0' as int)) == Digits(v) + [c]
  {
    var cv := c as int - '0' as int;
    assert (10 * v + cv) / 10 == v;
    assert (10 * v + cv) % 10 == cv;
  }

  /** Every non-empty digit string is the digits of its value after some
      leading zeros. */
  lemma {:induction false} DigitsCanonical(d: string) returns (k: nat)
    requires AllDigits(d) && d != []
    ensures d == Zeros(k) + Digits(DigitsValue(d))
    decreases |d|
  {
    var p, c := d[..|d| - 1], d[|d| - 1];
    var cv := c as int - '0' as int;
    assert d == p + [c];
    if p == [] {
      k := 0;
      OneDigit(c);
    } else {
      var j := DigitsCanonical(p);
      var v := DigitsValue(p);
      assert DigitsValue(d) == 10 * v + cv;
      if v == 0 {
        k := j + 1;
        assert Digits(v) == ['0'];
        assert p == Zeros(j) + ['0'];
        assert p == Zeros(k);
        OneDigit(c);
      } else {
        k := j;
        AppendDigit(v, c);
        assert d == Zeros(j) + Digits(v) + [c];
      }
    }
  }

  /** Every spelling the database accepts is read as its value: an optional
      sign (a minus only before a number that is not positive), any number
      of leading zeros, then the digits of the magnitude. */
  lemma ParseSpelled(sign: string, k: nat, n: int)
    requires sign == "" || sign == "+" || sign == "-"
    requires sign == "-" ==> n <= 0
    requires sign != "-" ==> n >= 0
    requires IntegerMin <= n <= IntegerMax
    ensures ParseInteger(Some(sign + Zeros(k) + Digits(Abs(n)))) == Some(n)
  {
    var body := Zeros(k) + Digits(Abs(n));
    PaddedValue(k, Digits(Abs(n)));
    DigitsRoundTrip(Abs(n));
    assert sign + Zeros(k) + Digits(Abs(n)) == sign + body;
    if sign == "" {
      assert sign + body == body;
      assert Abs(n) == n;
      ParseUnsigned(body, n);
    } else {
      assert sign == [sign[0]];
      ParseSigned(sign[0], body, n);
    }
  }

  /** Digits alone are read as the number they denote. */
  lemma ParseUnsigned(body: string, n: int)
    requires body != [] && AllDigits(body) && DigitsValue(body) == n
    requires n <= IntegerMax
    ensures ParseInteger(Some(body)) == Some(n)
  {
    assert IsDigit(body[0]);
  }

  /** A sign then digits is read as the signed number they denote. */
  lemma ParseSigned(c: char, body: string, n: int)
    requires c == '-' || c == '+'
    requires body != [] && AllDigits(body) && DigitsValue(body) == Abs(n)
    requires c == '-' ==> n <= 0
    requires c == '+' ==> n >= 0
    requires IntegerMin <= n <= IntegerMax
    ensures ParseInteger(Some([c] + body)) == Some(n)
  {
    var t := [c] + body;
    assert t[0] == c && t[1..] == body;
  }

  /** What a successful read of `t` consists of: an optional sign, then a
      non-empty run of digits denoting the magnitude. */
  lemma ParsedParts(t: string, n: int)
    requires ParseInteger(Some(t)) == Some(n)
    ensures t != []
    ensures var signed := t[0] == '-' || t[0] == '+';
            var digits := if signed then t[1..] else t;
      && digits != [] && AllDigits(digits)
      && Abs(n) == DigitsValue(digits)
      && (signed && t[0] == '-' ==> n <= 0)
      && (!(signed && t[0] == '-') ==> n >= 0)
  {
  }

  /** And nothing else is read as an integer: any text the database reads as
      `n` is such a spelling of `n`. */
  lemma ParseOnlySpelled(t: string, n: int)
    requires ParseInteger(Some(t)) == Some(n)
    ensures var sign := if t[0] == '+' || t[0] == '-' then [t[0]] else [];
      && (sign == "-" ==> n <= 0)
      && (sign != "-" ==> n >= 0)
      && exists k: nat :: t == sign + Zeros(k) + Digits(Abs(n))
  {
    ParsedParts(t, n);
    var signed := t[0] == '-' || t[0] == '+';
    var sign := if signed then [t[0]] else [];
    var digits := if signed then t[1..] else t;
    assert t == sign + digits;
    SpelledDigits(sign, digits, n);
  }

  /** A sign followed by the digits of a magnitude, leading zeros allowed. */
  lemma SpelledDigits(sign: string, digits: string, n: int)
    requires AllDigits(digits) && digits != [] && Abs(n) == DigitsValue(digits)
    ensures exists k: nat :: sign + digits == sign + Zeros(k) + Digits(Abs(n))
  {
    var k := DigitsCanonical(digits);
    assert sign + digits == sign + Zeros(k) + Digits(Abs(n));
  }

  /** Text with a character other than a digit after the optional sign is
      not an integer. */
  lemma ParseRefusesNonDigit(t: string, i: nat)
    requires i < |t| && !IsDigit(t[i])
    requires i > 0 || (t[0] != '+' && t[0] != '-')
    ensures ParseInteger(Some(t)) == None
  {
    var signed := t[0] == '-' || t[0] == '+';
    var digits := if signed then t[1..] else t;
    if signed {
      assert digits[i - 1] == t[i];
    }
  }

  /** The decimal text of an integer, as a form sends an id. */
  function FormatInteger(n: int): string {
    if n < 0 then "-" + Digits(-n) else Digits(n)
  }

  /** Every 32-bit id survives being sent as text and read back. */
  lemma ParseFormatRoundTrip(n: int)
    requires IntegerMin <= n <= IntegerMax
    ensures ParseInteger(Some(FormatInteger(n))) == Some(n)
  {
    var t := FormatInteger(n);
    if n < 0 {
      DigitsRoundTrip(-n);
      assert t[0] == '-' && t[1..] == Digits(-n);
    } else {
      DigitsRoundTrip(n);
      assert IsDigit(t[0]);
    }
  }
}

=== FILE: models.dfy ===
/** The persisted records — Venue, Artist and Show — and the store that holds
    them, with the constraints the schema declares. */
module Models {
  import opened Wrappers

  /** An integer primary key. */
  type Id = int

  /** A row of `venues`. Every nullable column is an `Option`; `genres` is a
      non-null array and `seeking_talent` a non-null boolean. */
  datatype Venue = Venue(
    name: Option<string>,
    genres: seq<string>,
    address: Option<string>,
    city: Option<string>,
    state: Option<string>,
    phone: Option<string>,
    website: Option<string>,
    facebookLink: Option<string>,
    seekingTalent: bool,
    seekingDescription: Option<string>,
    imageLink: Option<string>)

  /** A row of `artists`. */
  datatype Artist = Artist(
    name: Option<string>,
    genres: seq<string>,
    city: Option<string>,
    state: Option<string>,
    phone: Option<string>,
    website: Option<string>,
    facebookLink: Option<string>,
    seekingVenue: bool,
    seekingDescription: Option<string>,
    imageLink: Option<string>)

  /** A row of `shows`: a non-null start time (seconds on some fixed clock)
      and the two non-null foreign keys. */
  datatype Show = Show(startTime: int, artistId: Id, venueId: Id)

  /** The three tables, keyed by primary key, and the next value of each
      table's id sequence. */
  datatype Store = Store(
    venues: map<Id, Venue>,
    artists: map<Id, Artist>,
    shows: map<Id, Show>,
    nextVenueId: Id,
    nextArtistId: Id,
    nextShowId: Id)

  /** Bounds of the database's `integer` type, which holds every id column
      and every foreign key. */
  const IntegerMin: int := -0x8000_0000
  const IntegerMax: int := 0x7fff_ffff

  /** Width of the `String(120)` columns: address, city, state, phone. */
  const ShortWidth: nat := 120
  /** Width of the `String(500)` columns: website, facebook_link, image_link. */
  const LinkWidth: nat := 500

  /** A value the database accepts for a text column: its strings never hold
      the NUL character. */
  predicate Storable(t: Option<string>) {
    t.None? || '\0' !in t.value
  }

  /** A value the database accepts for the `genres` array. */
  predicate GenresStorable(genres: seq<string>) {
    forall i :: 0 <= i < |genres| ==> '\0' !in genres[i]
  }

  /** A value the database accepts for a `String(width)` column. */
  predicate FitsColumn(t: Option<string>, width: nat) {
    Storable(t) && (t.None? || |t.value| <= width)
  }

  predicate VenueFits(v: Venue) {
    && Storable(v.name)
    && GenresStorable(v.genres)
    && FitsColumn(v.address, ShortWidth)
    && FitsColumn(v.city, ShortWidth)
    && FitsColumn(v.state, ShortWidth)
    && FitsColumn(v.phone, ShortWidth)
    && FitsColumn(v.website, LinkWidth)
    && FitsColumn(v.facebookLink, LinkWidth)
    && Storable(v.seekingDescription)
    && FitsColumn(v.imageLink, LinkWidth)
  }

  predicate ArtistFits(a: Artist) {
    && Storable(a.name)
    && GenresStorable(a.genres)
    && FitsColumn(a.city, ShortWidth)
    && FitsColumn(a.state, ShortWidth)
    && FitsColumn(a.phone, ShortWidth)
    && FitsColumn(a.website, LinkWidth)
    && FitsColumn(a.facebookLink, LinkWidth)
    && Storable(a.seekingDescription)
    && FitsColumn(a.imageLink, LinkWidth)
  }

  /** Every show's foreign keys name an existing artist and venue. */
  ghost predicate Linked(s: Store) {
    forall sid :: sid in s.shows ==>
      s.shows[sid].venueId in s.venues && s.shows[sid].artistId in s.artists
  }

  /** Every id in use was handed out by its table's sequence, so the next
      value of the sequence is fresh. A sequence starts at 1 and stops after
      the largest `integer`; its next value is one past that once it is
      exhausted. */
  ghost predicate IdsIssued(s: Store) {
    && 1 <= s.nextVenueId <= IntegerMax + 1
    && 1 <= s.nextArtistId <= IntegerMax + 1
    && 1 <= s.nextShowId <= IntegerMax + 1
    && (forall id :: id in s.venues ==> 1 <= id < s.nextVenueId)
    && (forall id :: id in s.artists ==> 1 <= id < s.nextArtistId)
    && (forall id :: id in s.shows ==> 1 <= id < s.nextShowId)
  }

  /** Every stored value fits its column. */
  ghost predicate AllFit(s: Store) {
    && (forall id :: id in s.venues ==> VenueFits(s.venues[id]))
    && (forall id :: id in s.artists ==> ArtistFits(s.artists[id]))
  }

  /** What the database guarantees of every committed state. */
  ghost predicate Valid(s: Store) {
    Linked(s) && IdsIssued(s) && AllFit(s)
  }

  /** A freshly created database: empty tables, sequences starting at 1. */
  function EmptyStore(): (s: Store)
    ensures Valid(s)
    ensures s.venues == map[] && s.artists == map[] && s.shows == map[]
  {
    Store(map[], map[], map[], 1, 1, 1)
  }

  /** The two record kinds that own shows. */
  datatype Kind = VenueKind | ArtistKind

  /** A reference to a Venue or an Artist by id. */
  datatype Ref = Ref(kind: Kind, id: Id)

  function KeysOf(s: Store, kind: Kind): set<Id> {
    match kind
    case VenueKind => s.venues.Keys
    case ArtistKind => s.artists.Keys
  }

  predicate Exists(s: Store, r: Ref) {
    r.id in KeysOf(s, r.kind)
  }

  function NameOf(s: Store, r: Ref): Option<string>
    requires Exists(s, r)
  {
    match r.kind
    case VenueKind => s.venues[r.id].name
    case ArtistKind => s.artists[r.id].name
  }

  function ImageOf(s: Store, r: Ref): Option<string>
    requires Exists(s, r)
  {
    match r.kind
    case VenueKind => s.venues[r.id].imageLink
    case ArtistKind => s.artists[r.id].imageLink
  }

  /** The show's foreign key of kind `r.kind` names `r`. */
  predicate Belongs(sh: Show, r: Ref) {
    match r.kind
    case VenueKind => sh.venueId == r.id
    case ArtistKind => sh.artistId == r.id
  }

  /** The ids of the shows in `r`'s `shows` relationship. */
  function ShowsOf(s: Store, r: Ref): (ids: set<Id>)
    ensures forall sid :: sid in ids ==> sid in s.shows
  {
    set sid | sid in s.shows && Belongs(s.shows[sid], r)
  }

  /** Each show sits in the `shows` of exactly one venue and of exactly one
      artist: the ones its foreign keys name. */
  lemma ShowHasOneOwnerOfEachKind(s: Store, sid: Id, kind: Kind)
    requires Linked(s) && sid in s.shows
    ensures var owner := if kind == VenueKind then s.shows[sid].venueId else s.shows[sid].artistId;
            (set id | id in KeysOf(s, kind) && sid in ShowsOf(s, Ref(kind, id))) == {owner}
  {
    var owner := if kind == VenueKind then s.shows[sid].venueId else s.shows[sid].artistId;
    assert sid in ShowsOf(s, Ref(kind, owner));
  }

  /** Removing record `r` with `cascade="all, delete"` on its `shows`: the
      record goes and so does every show that names it. */
  function Cascade(s: Store, r: Ref): (t: Store)
    ensures !Exists(t, r)
    ensures forall sid :: sid in t.shows <==> sid in s.shows && !Belongs(s.shows[sid], r)
    ensures forall sid :: sid in t.shows ==> t.shows[sid] == s.shows[sid]
    ensures forall id :: id in KeysOf(t, r.kind) <==> id in KeysOf(s, r.kind) && id != r.id
    ensures r.kind == VenueKind ==> t.artists == s.artists && t.venues == s.venues - {r.id}
    ensures r.kind == ArtistKind ==> t.venues == s.venues && t.artists == s.artists - {r.id}
    ensures t == s.(venues := t.venues, artists := t.artists, shows := t.shows)
    ensures Valid(s) ==> Valid(t)
  {
    var shows := map sid | sid in s.shows && !Belongs(s.shows[sid], r) :: s.shows[sid];
    match r.kind
    case VenueKind => s.(venues := s.venues - {r.id}, shows := shows)
    case ArtistKind => s.(artists := s.artists - {r.id}, shows := shows)
  }

  /** Deleting venue `id` (the cascade declared on `Venue.shows`): fails with
      NotFound when there is no such venue; otherwise removes the venue and
      every show held there, and nothing else. */
  function DeleteVenue(s: Store, id: Id, available: bool): (r: Result<Store>)
    requires Valid(s)
    ensures !available ==> r == Failure(StorageUnavailable)
    ensures available && id !in s.venues ==> r == Failure(NotFound)
    ensures r.Success? <==> available && id in s.venues
    ensures r.Success? ==>
      && Valid(r.value)
      && r.value.venues.Keys == s.venues.Keys - {id}
      && (forall v :: v in r.value.venues ==> r.value.venues[v] == s.venues[v])
      && r.value.artists == s.artists
      && r.value == s.(venues := r.value.venues, shows := r.value.shows)
      && r.value.shows.Keys == s.shows.Keys - ShowsOf(s, Ref(VenueKind, id))
      && (forall sid :: sid in r.value.shows ==> r.value.shows[sid] == s.shows[sid])
      && ShowsOf(r.value, Ref(VenueKind, id)) == {}
  {
    if !available then Failure(StorageUnavailable)
    else if id !in s.venues then Failure(NotFound)
    else Success(Cascade(s, Ref(VenueKind, id)))
  }

  /** Deleting artist `id` (the cascade declared on `Artist.shows`). */
  function DeleteArtist(s: Store, id: Id, available: bool): (r: Result<Store>)
    requires Valid(s)
    ensures !available ==> r == Failure(StorageUnavailable)
    ensures available && id !in s.artists ==> r == Failure(NotFound)
    ensures r.Success? <==> available && id in s.artists
    ensures r.Success? ==>
      && Valid(r.value)
      && r.value.artists.Keys == s.artists.Keys - {id}
      && (forall a :: a in r.value.artists ==> r.value.artists[a] == s.artists[a])
      && r.value.venues == s.venues
      && r.value == s.(artists := r.value.artists, shows := r.value.shows)
      && r.value.shows.Keys == s.shows.Keys - ShowsOf(s, Ref(ArtistKind, id))
      && (forall sid :: sid in r.value.shows ==> r.value.shows[sid] == s.shows[sid])
      && ShowsOf(r.value, Ref(ArtistKind, id)) == {}
  {
    if !available then Failure(StorageUnavailable)
    else if id !in s.artists then Failure(NotFound)
    else Success(Cascade(s, Ref(ArtistKind, id)))
  }

  /** Deleting a venue that holds N shows removes exactly those N shows. */
  lemma DeleteVenueShowCount(s: Store, id: Id)
    requires Valid(s) && id in s.venues
    ensures |DeleteVenue(s, id, true).value.shows| == |s.shows| - |ShowsOf(s, Ref(VenueKind, id))|
  {
    var t := DeleteVenue(s, id, true).value;
    assert t.shows.Keys == s.shows.Keys - ShowsOf(s, Ref(VenueKind, id));
    assert |t.shows.Keys| == |s.shows.Keys| - |ShowsOf(s, Ref(VenueKind, id))|;
  }
}

=== FILE: mutations.dfy ===
/** The write side of the application: creating and editing venues and
    artists, and creating shows. Each request is one transaction: on success
    the new state is committed, on any failure it is rolled back, so a
    `Failure` leaves the store exactly as it was. Whether the database can
    run and commit the transaction at all is the parameter `available`. */
module Mutations {
  import opened Wrappers
  import opened Collections
  import opened FormData
  import opened Models
  import opened Queries

  // ---------------------------------------------------------------------
  // Form fields to records
  // ---------------------------------------------------------------------

  /** The Venue the create and edit handlers build from a submitted form.
      Every field is taken from the form, so an absent field gives null, an
      empty genre list or an unticked check box. */
  function VenueFromForm(f: Form): (v: Venue)
    ensures "genres" !in f ==> v.genres == []
    ensures v.seekingTalent <==>
      "seeking_talent" in f && f["seeking_talent"] != [] && f["seeking_talent"][0] == "y"
  {
    Venue(
      name := Get(f, "name"),
      genres := GetList(f, "genres"),
      address := Get(f, "address"),
      city := Get(f, "city"),
      state := Get(f, "state"),
      phone := Get(f, "phone"),
      website := Get(f, "website_link"),
      facebookLink := Get(f, "facebook_link"),
      seekingTalent := Checked(f, "seeking_talent"),
      seekingDescription := Get(f, "seeking_description"),
      imageLink := Get(f, "image_link"))
  }

  /** The Artist the create and edit handlers build from a submitted form. */
  function ArtistFromForm(f: Form): (a: Artist)
    ensures "genres" !in f ==> a.genres == []
    ensures a.seekingVenue <==>
      "seeking_venue" in f && f["seeking_venue"] != [] && f["seeking_venue"][0] == "y"
  {
    Artist(
      name := Get(f, "name"),
      genres := GetList(f, "genres"),
      city := Get(f, "city"),
      state := Get(f, "state"),
      phone := Get(f, "phone"),
      website := Get(f, "website_link"),
      facebookLink := Get(f, "facebook_link"),
      seekingVenue := Checked(f, "seeking_venue"),
      seekingDescription := Get(f, "seeking_description"),
      imageLink := Get(f, "image_link"))
  }

  /** The form that describes venue `v`, field by field. */
  function FormOfVenue(v: Venue): Form {
    map[
      "name" := Single(v.name),
      "genres" := v.genres,
      "address" := Single(v.address),
      "city" := Single(v.city),
      "state" := Single(v.state),
      "phone" := Single(v.phone),
      "website_link" := Single(v.website),
      "facebook_link" := Single(v.facebookLink),
      "seeking_talent" := CheckBox(v.seekingTalent),
      "seeking_description" := Single(v.seekingDescription),
      "image_link" := Single(v.imageLink)]
  }

  /** The form that describes artist `a`, field by field. */
  function FormOfArtist(a: Artist): Form {
    map[
      "name" := Single(a.name),
      "genres" := a.genres,
      "city" := Single(a.city),
      "state" := Single(a.state),
      "phone" := Single(a.phone),
      "website_link" := Single(a.website),
      "facebook_link" := Single(a.facebookLink),
      "seeking_venue" := CheckBox(a.seekingVenue),
      "seeking_description" := Single(a.seekingDescription),
      "image_link" := Single(a.imageLink)]
  }

  /** Reading a venue's form back yields the venue: no field is lost or
      mixed up with another. */
  lemma FormOfVenueRoundTrip(v: Venue)
    ensures VenueFromForm(FormOfVenue(v)) == v
  {
    var f := FormOfVenue(v);
    SingleRoundTrip(f, "name", v.name);
    SingleRoundTrip(f, "address", v.address);
    SingleRoundTrip(f, "city", v.city);
    SingleRoundTrip(f, "state", v.state);
    SingleRoundTrip(f, "phone", v.phone);
    SingleRoundTrip(f, "website_link", v.website);
    SingleRoundTrip(f, "facebook_link", v.facebookLink);
    CheckBoxRoundTrip(f, "seeking_talent", v.seekingTalent);
    SingleRoundTrip(f, "seeking_description", v.seekingDescription);
    SingleRoundTrip(f, "image_link", v.imageLink);
  }

  /** Reading an artist's form back yields the artist. */
  lemma FormOfArtistRoundTrip(a: Artist)
    ensures ArtistFromForm(FormOfArtist(a)) == a
  {
    var f := FormOfArtist(a);
    SingleRoundTrip(f, "name", a.name);
    SingleRoundTrip(f, "city", a.city);
    SingleRoundTrip(f, "state", a.state);
    SingleRoundTrip(f, "phone", a.phone);
    SingleRoundTrip(f, "website_link", a.website);
    SingleRoundTrip(f, "facebook_link", a.facebookLink);
    CheckBoxRoundTrip(f, "seeking_venue", a.seekingVenue);
    SingleRoundTrip(f, "seeking_description", a.seekingDescription);
    SingleRoundTrip(f, "image_link", a.imageLink);
  }

  // ---------------------------------------------------------------------
  // Create and edit venues and artists
  // ---------------------------------------------------------------------

  /** Inserting a storable venue under the next id of a sequence that is not
      exhausted keeps the store invariant. */
  lemma InsertVenueKeepsValid(s: Store, v: Venue)
    requires Valid(s) && VenueFits(v) && s.nextVenueId <= IntegerMax
    ensures Valid(s.(venues := s.venues[s.nextVenueId := v], nextVenueId := s.nextVenueId + 1))
  {
  }

  /** Inserting a storable artist under the next id of a sequence that is
      not exhausted keeps the store invariant. */
  lemma InsertArtistKeepsValid(s: Store, a: Artist)
    requires Valid(s) && ArtistFits(a) && s.nextArtistId <= IntegerMax
    ensures Valid(s.(artists := s.artists[s.nextArtistId := a], nextArtistId := s.nextArtistId + 1))
  {
  }

  /** `create_venue_submission()`: inserts the venue built from the form
      under the next id of the venue sequence, or fails and changes
      nothing. */
  function CreateVenue(s: Store, f: Form, available: bool): (r: Result<Store>)
    requires Valid(s)
    ensures !available ==> r == Failure(StorageUnavailable)
    ensures available && !VenueFits(VenueFromForm(f)) ==> r == Failure(ValidationFailure)
    ensures available && VenueFits(VenueFromForm(f)) && s.nextVenueId > IntegerMax ==> r == Failure(SequenceExhausted)
    ensures r.Success? <==> available && VenueFits(VenueFromForm(f)) && s.nextVenueId <= IntegerMax
    ensures r.Success? ==>
      var id := s.nextVenueId;
      && id !in s.venues
      && r.value.venues.Keys == s.venues.Keys + {id}
      && |r.value.venues| == |s.venues| + 1
      && r.value.venues[id] == VenueFromForm(f)
      && (forall v :: v in s.venues ==> r.value.venues[v] == s.venues[v])
      && r.value.artists == s.artists && r.value.shows == s.shows
      && r.value == s.(venues := r.value.venues, nextVenueId := s.nextVenueId + 1)
      && Valid(r.value)
  {
    var v := VenueFromForm(f);
    if !available then Failure(StorageUnavailable)
    else if !VenueFits(v) then Failure(ValidationFailure)
    else if s.nextVenueId > IntegerMax then Failure(SequenceExhausted)
    else
      InsertVenueKeepsValid(s, v);
      Success(s.(venues := s.venues[s.nextVenueId := v], nextVenueId := s.nextVenueId + 1))
  }

  /** `create_artist_submission()`: inserts the artist built from the form
      under the next id of the artist sequence, or fails and changes
      nothing. */
  function CreateArtist(s: Store, f: Form, available: bool): (r: Result<Store>)
    requires Valid(s)
    ensures !available ==> r == Failure(StorageUnavailable)
    ensures available && !ArtistFits(ArtistFromForm(f)) ==> r == Failure(ValidationFailure)
    ensures available && ArtistFits(ArtistFromForm(f)) && s.nextArtistId > IntegerMax ==> r == Failure(SequenceExhausted)
    ensures r.Success? <==> available && ArtistFits(ArtistFromForm(f)) && s.nextArtistId <= IntegerMax
    ensures r.Success? ==>
      var id := s.nextArtistId;
      && id !in s.artists
      && r.value.artists.Keys == s.artists.Keys + {id}
      && |r.value.artists| == |s.artists| + 1
      && r.value.artists[id] == ArtistFromForm(f)
      && (forall a :: a in s.artists ==> r.value.artists[a] == s.artists[a])
      && r.value.venues == s.venues && r.value.shows == s.shows
      && r.value == s.(artists := r.value.artists, nextArtistId := s.nextArtistId + 1)
      && Valid(r.value)
  {
    var a := ArtistFromForm(f);
    if !available then Failure(StorageUnavailable)
    else if !ArtistFits(a) then Failure(ValidationFailure)
    else if s.nextArtistId > IntegerMax then Failure(SequenceExhausted)
    else
      InsertArtistKeepsValid(s, a);
      Success(s.(artists := s.artists[s.nextArtistId := a], nextArtistId := s.nextArtistId + 1))
  }

  /** `edit_artist_submission(artist_id)`: NotFound for an unknown id;
      otherwise every field of the artist is replaced by the form's (a full
      replace, not a patch), the id is kept and no other record changes. */
  function EditArtist(s: Store, id: Id, f: Form, available: bool): (r: Result<Store>)
    requires Valid(s)
    ensures !available ==> r == Failure(StorageUnavailable)
    ensures available && id !in s.artists ==> r == Failure(NotFound)
    ensures available && id in s.artists && !ArtistFits(ArtistFromForm(f)) ==> r == Failure(ValidationFailure)
    ensures r.Success? <==> available && id in s.artists && ArtistFits(ArtistFromForm(f))
    ensures r.Success? ==>
      && r.value.artists.Keys == s.artists.Keys
      && r.value.artists[id] == ArtistFromForm(f)
      && (forall a :: a in s.artists && a != id ==> r.value.artists[a] == s.artists[a])
      && r.value.venues == s.venues && r.value.shows == s.shows
      && r.value == s.(artists := r.value.artists)
      && Valid(r.value)
  {
    if !available then Failure(StorageUnavailable)
    else if id !in s.artists then Failure(NotFound)
    else
      var a := ArtistFromForm(f);
      if !ArtistFits(a) then Failure(ValidationFailure)
      else Success(s.(artists := s.artists[id := a]))
  }

  /** `edit_venue_submission(venue_id)`, with the name stored as the string
      the form sent (see `VenueNameAssignedAsWritten` for the line as it
      stands): NotFound for an unknown id; otherwise a full replace of the
      venue's fields under the same id, and no other record changes. */
  function EditVenue(s: Store, id: Id, f: Form, available: bool): (r: Result<Store>)
    requires Valid(s)
    ensures !available ==> r == Failure(StorageUnavailable)
    ensures available && id !in s.venues ==> r == Failure(NotFound)
    ensures available && id in s.venues && !VenueFits(VenueFromForm(f)) ==> r == Failure(ValidationFailure)
    ensures r.Success? <==> available && id in s.venues && VenueFits(VenueFromForm(f))
    ensures r.Success? ==>
      && r.value.venues.Keys == s.venues.Keys
      && r.value.venues[id] == VenueFromForm(f)
      && r.value.venues[id].name == Get(f, "name")
      && (forall v :: v in s.venues && v != id ==> r.value.venues[v] == s.venues[v])
      && r.value.artists == s.artists && r.value.shows == s.shows
      && r.value == s.(venues := r.value.venues)
      && Valid(r.value)
  {
    if !available then Failure(StorageUnavailable)
    else if id !in s.venues then Failure(NotFound)
    else
      var v := VenueFromForm(f);
      if !VenueFits(v) then Failure(ValidationFailure)
      else Success(s.(venues := s.venues[id := v]))
  }

  // ---------------------------------------------------------------------
  // Create a show
  // ---------------------------------------------------------------------

  /** The submitted show form: the start time as already parsed into an
      instant (absent when missing or unreadable), and the two ids as the
      raw strings the form sent. */
  datatype ShowSubmission = ShowSubmission(startTime: Option<int>, artistId: Option<string>, venueId: Option<string>)

  /** Every column of the new show has a value of the right type. */
  predicate WellTyped(sub: ShowSubmission) {
    sub.startTime.Some? && ParseInteger(sub.artistId).Some? && ParseInteger(sub.venueId).Some?
  }

  /** `create_show_submission()`: inserts the show under the next id of the
      show sequence. A missing or unreadable value fails validation, an id
      naming no artist or no venue violates the foreign key; either way
      nothing changes. */
  function CreateShow(s: Store, sub: ShowSubmission, available: bool): (r: Result<Store>)
    requires Valid(s)
    ensures !available ==> r == Failure(StorageUnavailable)
    ensures available && !WellTyped(sub) ==> r == Failure(ValidationFailure)
    ensures available && WellTyped(sub) && s.nextShowId > IntegerMax ==> r == Failure(SequenceExhausted)
    ensures available && WellTyped(sub) && s.nextShowId <= IntegerMax &&
      (ParseInteger(sub.artistId).value !in s.artists || ParseInteger(sub.venueId).value !in s.venues)
      ==> r == Failure(ConstraintViolation)
    ensures r.Success? <==>
      && available && WellTyped(sub) && s.nextShowId <= IntegerMax
      && ParseInteger(sub.artistId).value in s.artists
      && ParseInteger(sub.venueId).value in s.venues
    ensures r.Success? ==>
      var id := s.nextShowId;
      && id !in s.shows
      && r.value.shows.Keys == s.shows.Keys + {id}
      && |r.value.shows| == |s.shows| + 1
      && r.value.shows[id] == Show(sub.startTime.value, ParseInteger(sub.artistId).value, ParseInteger(sub.venueId).value)
      && (forall sid :: sid in s.shows ==> r.value.shows[sid] == s.shows[sid])
      && r.value.venues == s.venues && r.value.artists == s.artists
      && r.value == s.(shows := r.value.shows, nextShowId := s.nextShowId + 1)
      && Valid(r.value)
  {
    if !available then Failure(StorageUnavailable)
    else if !WellTyped(sub) then Failure(ValidationFailure)
    else
      var artist, venue := ParseInteger(sub.artistId).value, ParseInteger(sub.venueId).value;
      if s.nextShowId > IntegerMax then Failure(SequenceExhausted)
      else if artist !in s.artists || venue !in s.venues then Failure(ConstraintViolation)
      else Success(s.(shows := s.shows[s.nextShowId := Show(sub.startTime.value, artist, venue)],
                      nextShowId := s.nextShowId + 1))
  }

  // ---------------------------------------------------------------------
  // Properties across requests
  // ---------------------------------------------------------------------

  /** Creating a venue and then opening its page shows exactly the submitted
      fields, and no past or upcoming shows. */
  lemma CreateVenueThenDetail(s: Store, v: Venue, sscan: seq<Id>, now: int)
    requires Valid(s) && VenueFits(v) && s.nextVenueId <= IntegerMax && IsScanOf(sscan, s.shows.Keys)
    ensures CreateVenue(s, FormOfVenue(v), true).Success?
    ensures var t := CreateVenue(s, FormOfVenue(v), true).value;
            var d := VenueDetail(t, s.nextVenueId, sscan, now);
      && d.Success?
      && d.value.record == v
      && d.value.shows.pastShows == [] && d.value.shows.upcomingShows == []
  {
    FormOfVenueRoundTrip(v);
    var t := CreateVenue(s, FormOfVenue(v), true).value;
    var id := s.nextVenueId;
    assert ShowsOf(t, Ref(VenueKind, id)) == {} by {
      forall sid | sid in t.shows
        ensures !Belongs(t.shows[sid], Ref(VenueKind, id))
      {
        assert t.shows[sid].venueId in s.venues;
      }
    }
  }

  /** Editing a venue with the form that describes `v` leaves exactly `v`
      under that id: no earlier value survives. */
  lemma EditVenueReplacesEveryField(s: Store, id: Id, v: Venue)
    requires Valid(s) && id in s.venues && VenueFits(v)
    ensures EditVenue(s, id, FormOfVenue(v), true).Success?
    ensures EditVenue(s, id, FormOfVenue(v), true).value.venues[id] == v
  {
    FormOfVenueRoundTrip(v);
  }

  /** Editing an artist with the form that describes `a` leaves exactly `a`
      under that id: no earlier value survives. */
  lemma EditArtistReplacesEveryField(s: Store, id: Id, a: Artist)
    requires Valid(s) && id in s.artists && ArtistFits(a)
    ensures EditArtist(s, id, FormOfArtist(a), true).Success?
    ensures EditArtist(s, id, FormOfArtist(a), true).value.artists[id] == a
  {
    FormOfArtistRoundTrip(a);
  }

  /** A new show adds one to its venue's upcoming count exactly when it
      starts after `now`, and leaves every other venue's count alone. */
  lemma CreateShowUpcomingCount(s: Store, sub: ShowSubmission, now: int, vid: Id)
    requires Valid(s) && CreateShow(s, sub, true).Success?
    ensures var t := CreateShow(s, sub, true).value;
            var sh := t.shows[s.nextShowId];
      |UpcomingSet(t, Ref(VenueKind, vid), now)| ==
        |UpcomingSet(s, Ref(VenueKind, vid), now)| + (if sh.venueId == vid && sh.startTime > now then 1 else 0)
  {
    var t := CreateShow(s, sub, true).value;
    var id := s.nextShowId;
    var sh := t.shows[id];
    var before, after := UpcomingSet(s, Ref(VenueKind, vid), now), UpcomingSet(t, Ref(VenueKind, vid), now);
    assert id !in before;
    if sh.venueId == vid && sh.startTime > now {
      assert after == before + {id};
    } else {
      assert after == before;
    }
  }

  /** After a venue is deleted, the show listing holds none of its shows. */
  lemma DeleteVenueLeavesNoShowListed(s: Store, id: Id, sscan: seq<Id>)
    requires Valid(s) && id in s.venues
    requires IsScanOf(sscan, DeleteVenue(s, id, true).value.shows.Keys)
    ensures forall row :: row in ListShows(DeleteVenue(s, id, true).value, sscan) ==> row.venueId != id
  {
    var t := DeleteVenue(s, id, true).value;
    var rows := ListShows(t, sscan);
    forall row | row in rows
      ensures row.venueId != id
    {
      var i :| 0 <= i < |rows| && rows[i] == row;
      assert sscan[i] !in ShowsOf(t, Ref(VenueKind, id));
    }
  }

  // ---------------------------------------------------------------------
  // The venue name assignment in edit_venue_submission
  // ---------------------------------------------------------------------

  /** A Python value as the handler holds it before the commit. */
  datatype PyValue = PyNone | PyStr(text: string) | PyTuple(items: seq<PyValue>)

  function PyOf(t: Option<string>): PyValue {
    if t.Some? then PyStr(t.value) else PyNone
  }

  /** The value `venue.name = request.form.get('name'),` assigns: the
      trailing comma makes it a one-element tuple. */
  function VenueNameAssignedAsWritten(f: Form): (x: PyValue)
    ensures x.PyTuple? && |x.items| == 1
  {
    PyTuple([PyOf(Get(f, "name"))])
  }

  /** For every form, the name assigned as written is neither the submitted
      string nor null, whereas the artist handler and `EditVenue` assign the
      submitted value itself. */
  lemma VenueNameAsWrittenIsNotTheName(f: Form)
    ensures VenueNameAssignedAsWritten(f) != PyOf(Get(f, "name"))
    ensures forall t :: VenueNameAssignedAsWritten(f) != PyOf(t)
  {
  }
}

=== FILE: queries.dfy ===
/** The read side of the application: the venue listing grouped by place, the
    name searches, the detail pages with past and upcoming shows, and the
    artist and show listings. The wall-clock time is the parameter `now`,
    and the order in which the database scans a table is the parameter
    `scan` (any order that lists every key once). */
module Queries {
  import opened Wrappers
  import opened Collections
  import opened Text
  import opened Models

  // ---------------------------------------------------------------------
  // Shows of a record, and the upcoming count
  // ---------------------------------------------------------------------

  /** Show `sid` is one of `r`'s shows. */
  function IsShowOf(s: Store, r: Ref): Id -> bool {
    sid => sid in s.shows && Belongs(s.shows[sid], r)
  }

  /** Show `sid` starts strictly after `now`. */
  function StartsAfter(s: Store, now: int): Id -> bool {
    sid => sid in s.shows && s.shows[sid].startTime > now
  }

  /** Show `sid` starts strictly before `now`. */
  function StartsBefore(s: Store, now: int): Id -> bool {
    sid => sid in s.shows && s.shows[sid].startTime < now
  }

  /** `r.shows`: the shows of `r`, in the order of a scan of the show table. */
  function ShowList(s: Store, sscan: seq<Id>, r: Ref): (ids: seq<Id>)
    requires IsScanOf(sscan, s.shows.Keys)
    ensures Distinct(ids)
    ensures forall sid :: sid in ids <==> sid in ShowsOf(s, r)
  {
    Filter(sscan, IsShowOf(s, r))
  }

  /** The shows of `r` that start strictly after `now`. */
  ghost function UpcomingSet(s: Store, r: Ref, now: int): set<Id> {
    set sid | sid in s.shows && Belongs(s.shows[sid], r) && s.shows[sid].startTime > now
  }

  /** `len([show for show in r.shows if show.start_time > now])`: a show
      starting exactly at `now` is not counted. */
  function NumUpcomingShows(s: Store, sscan: seq<Id>, r: Ref, now: int): (n: nat)
    requires IsScanOf(sscan, s.shows.Keys)
    ensures n == |UpcomingSet(s, r, now)|
  {
    var upcoming := Filter(ShowList(s, sscan, r), StartsAfter(s, now));
    UpcomingCount(s, sscan, r, now);
    |upcoming|
  }

  lemma UpcomingCount(s: Store, sscan: seq<Id>, r: Ref, now: int)
    requires IsScanOf(sscan, s.shows.Keys)
    ensures |Filter(ShowList(s, sscan, r), StartsAfter(s, now))| == |UpcomingSet(s, r, now)|
  {
    var shows := ShowList(s, sscan, r);
    var upcoming := Filter(shows, StartsAfter(s, now));
    DistinctCount(upcoming);
    assert Elements(upcoming) == UpcomingSet(s, r, now);
  }

  /** As time passes the upcoming count never grows. */
  lemma UpcomingNeverGrows(s: Store, sscan: seq<Id>, r: Ref, now: int, later: int)
    requires IsScanOf(sscan, s.shows.Keys)
    requires now <= later
    ensures NumUpcomingShows(s, sscan, r, later) <= NumUpcomingShows(s, sscan, r, now)
  {
    SubsetCount(UpcomingSet(s, r, later), UpcomingSet(s, r, now));
  }

  // ---------------------------------------------------------------------
  // Summaries: the `{id, name, num_upcoming_shows}` entries
  // ---------------------------------------------------------------------

  datatype Summary = Summary(id: Id, name: Option<string>, numUpcomingShows: nat)

  /** The ids of a list of summaries, in order. */
  function SummaryIds(es: seq<Summary>): (ids: seq<Id>)
    ensures |ids| == |es|
    ensures forall i :: 0 <= i < |es| ==> ids[i] == es[i].id
  {
    seq(|es|, i requires 0 <= i < |es| => es[i].id)
  }

  /** The summary entry of each listed record of kind `kind`. */
  function Summaries(s: Store, sscan: seq<Id>, kind: Kind, ids: seq<Id>, now: int): (es: seq<Summary>)
    requires IsScanOf(sscan, s.shows.Keys)
    requires forall id :: id in ids ==> Exists(s, Ref(kind, id))
    ensures SummaryIds(es) == ids
    ensures forall e :: e in es ==>
      && Exists(s, Ref(kind, e.id))
      && e.name == NameOf(s, Ref(kind, e.id))
      && e.numUpcomingShows == |UpcomingSet(s, Ref(kind, e.id), now)|
  {
    var es := seq(|ids|, i requires 0 <= i < |ids| =>
      Summary(ids[i], NameOf(s, Ref(kind, ids[i])), NumUpcomingShows(s, sscan, Ref(kind, ids[i]), now)));
    assert SummaryIds(es) == ids;
    es
  }

  // ---------------------------------------------------------------------
  // The venue listing, grouped by (city, state)
  // ---------------------------------------------------------------------

  /** A grouping key: (city, state). Nulls compare equal to each other, as
      they do both in Python and under DISTINCT. */
  type Place = (Option<string>, Option<string>)

  function PlaceOf(v: Venue): Place {
    (v.city, v.state)
  }

  /** The places of the scanned venues. */
  ghost function PlacesOf(s: Store, vscan: seq<Id>): set<Place>
    requires forall vid :: vid in vscan ==> vid in s.venues
  {
    set vid | vid in vscan :: PlaceOf(s.venues[vid])
  }

  /** `Venue.query.distinct(Venue.city, Venue.state)`: one entry per distinct
      place, in order of first appearance in the scan. */
  function DistinctPlaces(s: Store, vscan: seq<Id>): (ps: seq<Place>)
    requires forall vid :: vid in vscan ==> vid in s.venues
    ensures Distinct(ps)
    ensures Elements(ps) == PlacesOf(s, vscan)
    decreases |vscan|
  {
    if vscan == [] then []
    else
      var init := vscan[..|vscan| - 1];
      var last := vscan[|vscan| - 1];
      assert vscan == init + [last];
      var ps := DistinctPlaces(s, init);
      var p := PlaceOf(s.venues[last]);
      assert PlacesOf(s, vscan) == PlacesOf(s, init) + {p};
      if p in ps then ps else ps + [p]
  }

  /** Venue `vid` is located at `p`. */
  function AtPlace(s: Store, p: Place): Id -> bool {
    vid => vid in s.venues && PlaceOf(s.venues[vid]) == p
  }

  /** One `{city, state, venues}` entry of the listing. */
  datatype Area = Area(city: Option<string>, state: Option<string>, venues: seq<Summary>)

  function AreaPlace(a: Area): Place {
    (a.city, a.state)
  }

  /** The inner loop: every scanned venue located at `p`. */
  function LocalVenues(s: Store, vscan: seq<Id>, sscan: seq<Id>, p: Place, now: int): (es: seq<Summary>)
    requires IsScanOf(vscan, s.venues.Keys) && IsScanOf(sscan, s.shows.Keys)
    ensures Distinct(SummaryIds(es))
    ensures forall vid :: vid in SummaryIds(es) <==> vid in s.venues && PlaceOf(s.venues[vid]) == p
    ensures forall e :: e in es ==>
      && e.id in s.venues
      && e.name == s.venues[e.id].name
      && e.numUpcomingShows == |UpcomingSet(s, Ref(VenueKind, e.id), now)|
  {
    Summaries(s, sscan, VenueKind, Filter(vscan, AtPlace(s, p)), now)
  }

  /** The grouping keys of a listing, in order. */
  function AreaPlaces(areas: seq<Area>): (ps: seq<Place>)
    ensures |ps| == |areas|
    ensures forall i :: 0 <= i < |areas| ==> ps[i] == AreaPlace(areas[i])
  {
    seq(|areas|, i requires 0 <= i < |areas| => AreaPlace(areas[i]))
  }

  /** The place of every stored venue. */
  ghost function VenuePlaces(s: Store): set<Place> {
    set vid | vid in s.venues :: PlaceOf(s.venues[vid])
  }

  /** `venues()`: one group per distinct (city, state) among the venues,
      each holding that place's venues. */
  function Areas(s: Store, vscan: seq<Id>, sscan: seq<Id>, now: int): (areas: seq<Area>)
    requires IsScanOf(vscan, s.venues.Keys) && IsScanOf(sscan, s.shows.Keys)
    ensures Distinct(AreaPlaces(areas))
    ensures Elements(AreaPlaces(areas)) == VenuePlaces(s)
    ensures forall i :: 0 <= i < |areas| ==>
      areas[i].venues == LocalVenues(s, vscan, sscan, AreaPlace(areas[i]), now)
  {
    var ps := DistinctPlaces(s, vscan);
    var areas := seq(|ps|, i requires 0 <= i < |ps| =>
      Area(ps[i].0, ps[i].1, LocalVenues(s, vscan, sscan, ps[i], now)));
    assert AreaPlaces(areas) == ps;
    assert PlacesOf(s, vscan) == VenuePlaces(s);
    areas
  }

  /** Group `i` lists venue `vid` exactly when the venue is at the group's
      place; no group holds a venue from elsewhere, and no group lists a
      venue twice. */
  lemma AreaHoldsItsPlace(s: Store, vscan: seq<Id>, sscan: seq<Id>, now: int, i: int, vid: Id)
    requires IsScanOf(vscan, s.venues.Keys) && IsScanOf(sscan, s.shows.Keys)
    requires 0 <= i < |Areas(s, vscan, sscan, now)|
    ensures var a := Areas(s, vscan, sscan, now)[i];
      && (vid in SummaryIds(a.venues) <==> vid in s.venues && PlaceOf(s.venues[vid]) == AreaPlace(a))
      && Distinct(SummaryIds(a.venues))
  {
  }

  /** Every venue is listed in exactly one group: the one for its place. */
  lemma VenueInExactlyOneArea(s: Store, vscan: seq<Id>, sscan: seq<Id>, now: int, vid: Id)
    requires IsScanOf(vscan, s.venues.Keys) && IsScanOf(sscan, s.shows.Keys)
    requires vid in s.venues
    ensures var areas := Areas(s, vscan, sscan, now);
            |set i | 0 <= i < |areas| && vid in SummaryIds(areas[i].venues)| == 1
  {
    var areas := Areas(s, vscan, sscan, now);
    var p := PlaceOf(s.venues[vid]);
    assert p in VenuePlaces(s);
    forall i | 0 <= i < |areas|
      ensures vid in SummaryIds(areas[i].venues) <==> AreaPlace(areas[i]) == p
    {
      AreaHoldsItsPlace(s, vscan, sscan, now, i, vid);
    }
    ListedOnce(areas, vid, p);
  }

  /** If the groups have distinct places, one of them is `p`, and `vid` is
      listed exactly in the groups for `p`, then it is listed in one group. */
  lemma ListedOnce(areas: seq<Area>, vid: Id, p: Place)
    requires Distinct(AreaPlaces(areas)) && p in Elements(AreaPlaces(areas))
    requires forall i :: 0 <= i < |areas| ==>
      (vid in SummaryIds(areas[i].venues) <==> AreaPlace(areas[i]) == p)
    ensures |set i | 0 <= i < |areas| && vid in SummaryIds(areas[i].venues)| == 1
  {
    var ps := AreaPlaces(areas);
    var k := OccursOnce(ps, p);
    var hits := set i | 0 <= i < |areas| && vid in SummaryIds(areas[i].venues);
    forall i | 0 <= i < |areas|
      ensures i in hits <==> i == k
    {
      assert ps[i] == AreaPlace(areas[i]);
    }
    assert hits == {k};
  }

  // ---------------------------------------------------------------------
  // Search by name
  // ---------------------------------------------------------------------

  /** `name ILIKE '%term%'`. A null name yields null, which the filter drops. */
  predicate NameMatches(name: Option<string>, term: string) {
    name.Some? && ILike(name.value, SearchPattern(term))
  }

  /** The `{count, data}` response of a search. */
  datatype SearchResult = SearchResult(count: nat, data: seq<Summary>)

  /** Record `id` of kind `kind` exists and its name matches `term`. */
  function Matches(s: Store, kind: Kind, term: string): Id -> bool {
    id => Exists(s, Ref(kind, id)) && NameMatches(NameOf(s, Ref(kind, id)), term)
  }

  /** The query both search handlers run, over a scan of the searched table,
      for a term the database accepts. */
  function Search(s: Store, kind: Kind, scan: seq<Id>, sscan: seq<Id>, term: string, now: int): (res: SearchResult)
    requires IsScanOf(scan, KeysOf(s, kind)) && IsScanOf(sscan, s.shows.Keys)
    ensures res.count == |res.data|
    ensures Distinct(SummaryIds(res.data))
    ensures forall id :: id in SummaryIds(res.data) <==> Matches(s, kind, term)(id)
    ensures forall e :: e in res.data ==>
      && Exists(s, Ref(kind, e.id))
      && e.name == NameOf(s, Ref(kind, e.id))
      && e.numUpcomingShows == |UpcomingSet(s, Ref(kind, e.id), now)|
  {
    var found := Filter(scan, Matches(s, kind, term));
    var data := Summaries(s, sscan, kind, found, now);
    SearchResult(|data|, data)
  }

  /** `search_venues()`: a term holding NUL is refused by the database, and
      the handler fails; otherwise exactly the venues whose name contains
      the term, ignoring case, each once. */
  function SearchVenues(s: Store, vscan: seq<Id>, sscan: seq<Id>, term: string, now: int): (r: Result<SearchResult>)
    requires IsScanOf(vscan, s.venues.Keys) && IsScanOf(sscan, s.shows.Keys)
    ensures r.Failure? <==> !Storable(Some(term))
    ensures r.Failure? ==> r.error == ValidationFailure
    ensures r.Success? ==>
      && r.value.count == |r.value.data|
      && Distinct(SummaryIds(r.value.data))
      && (forall id :: id in SummaryIds(r.value.data) <==>
            id in s.venues && NameMatches(s.venues[id].name, term))
      && (forall e :: e in r.value.data ==>
            && e.id in s.venues && e.name == s.venues[e.id].name
            && e.numUpcomingShows == |UpcomingSet(s, Ref(VenueKind, e.id), now)|)
  {
    if !Storable(Some(term)) then Failure(ValidationFailure)
    else Success(Search(s, VenueKind, vscan, sscan, term, now))
  }

  /** `search_artists()`: a term holding NUL is refused by the database, and
      the handler fails; otherwise exactly the artists whose name contains
      the term, ignoring case, each once. */
  function SearchArtists(s: Store, ascan: seq<Id>, sscan: seq<Id>, term: string, now: int): (r: Result<SearchResult>)
    requires IsScanOf(ascan, s.artists.Keys) && IsScanOf(sscan, s.shows.Keys)
    ensures r.Failure? <==> !Storable(Some(term))
    ensures r.Failure? ==> r.error == ValidationFailure
    ensures r.Success? ==>
      && r.value.count == |r.value.data|
      && Distinct(SummaryIds(r.value.data))
      && (forall id :: id in SummaryIds(r.value.data) <==>
            id in s.artists && NameMatches(s.artists[id].name, term))
      && (forall e :: e in r.value.data ==>
            && e.id in s.artists && e.name == s.artists[e.id].name
            && e.numUpcomingShows == |UpcomingSet(s, Ref(ArtistKind, e.id), now)|)
  {
    if !Storable(Some(term)) then Failure(ValidationFailure)
    else Success(Search(s, ArtistKind, ascan, sscan, term, now))
  }

  /** With a term free of LIKE's special characters, a search finds exactly
      the records whose lower-cased name contains the lower-cased term. */
  lemma SearchFindsSubstrings(s: Store, kind: Kind, scan: seq<Id>, sscan: seq<Id>, term: string, now: int, id: Id)
    requires IsScanOf(scan, KeysOf(s, kind)) && IsScanOf(sscan, s.shows.Keys)
    requires IsLiteral(term)
    ensures id in SummaryIds(Search(s, kind, scan, sscan, term, now).data) <==>
      Exists(s, Ref(kind, id)) && NameOf(s, Ref(kind, id)).Some?
      && Contains(Lower(NameOf(s, Ref(kind, id)).value), Lower(term))
  {
    if Exists(s, Ref(kind, id)) && NameOf(s, Ref(kind, id)).Some? {
      SearchPatternMeansSubstring(NameOf(s, Ref(kind, id)).value, term);
    }
  }

  /** The default term `''` finds every record that has a name, and the
      count is the number of such records. */
  lemma EmptySearchFindsAllNamed(s: Store, kind: Kind, scan: seq<Id>, sscan: seq<Id>, now: int)
    requires IsScanOf(scan, KeysOf(s, kind)) && IsScanOf(sscan, s.shows.Keys)
    ensures var res := Search(s, kind, scan, sscan, "", now);
      && (forall id :: id in SummaryIds(res.data) <==>
            Exists(s, Ref(kind, id)) && NameOf(s, Ref(kind, id)).Some?)
      && res.count == |set id | id in KeysOf(s, kind) && NameOf(s, Ref(kind, id)).Some?|
  {
    var res := Search(s, kind, scan, sscan, "", now);
    forall id | Exists(s, Ref(kind, id)) && NameOf(s, Ref(kind, id)).Some?
      ensures id in SummaryIds(res.data)
    {
      EmptyTermMatchesAll(NameOf(s, Ref(kind, id)).value);
    }
    var ids := SummaryIds(res.data);
    DistinctCount(ids);
    assert Elements(ids) == set id | id in KeysOf(s, kind) && NameOf(s, Ref(kind, id)).Some?;
  }

  // ---------------------------------------------------------------------
  // Detail pages: past and upcoming shows
  // ---------------------------------------------------------------------

  /** The ids of a record's shows, split as the detail loop splits them. */
  datatype Split = Split(past: seq<Id>, upcoming: seq<Id>)

  /** The detail loop: a show starting strictly before `now` is past, every
      other show (including one starting exactly at `now`) is upcoming;
      each list keeps the order of `ids`. */
  function SplitShows(s: Store, ids: seq<Id>, now: int): (sp: Split)
    requires forall i :: 0 <= i < |ids| ==> ids[i] in s.shows
    ensures sp.past == Filter(ids, StartsBefore(s, now))
    ensures sp.upcoming == Filter(ids, Not(StartsBefore(s, now)))
    decreases |ids|
  {
    if ids == [] then Split([], [])
    else
      var rest := SplitShows(s, ids[1..], now);
      if s.shows[ids[0]].startTime < now then Split([ids[0]] + rest.past, rest.upcoming)
      else Split(rest.past, [ids[0]] + rest.upcoming)
  }

  /** The split of a record's shows is a partition: past holds exactly the
      shows before `now`, upcoming exactly the others, no show is in both,
      and together they hold every show of the record once. */
  lemma SplitIsPartition(s: Store, sscan: seq<Id>, r: Ref, now: int)
    requires IsScanOf(sscan, s.shows.Keys)
    ensures var shows := ShowList(s, sscan, r);
            var sp := SplitShows(s, shows, now);
      && (forall sid :: sid in sp.past <==> sid in ShowsOf(s, r) && s.shows[sid].startTime < now)
      && (forall sid :: sid in sp.upcoming <==> sid in ShowsOf(s, r) && s.shows[sid].startTime >= now)
      && Distinct(sp.past + sp.upcoming)
      && multiset(sp.past) + multiset(sp.upcoming) == multiset(shows)
      && |sp.past| + |sp.upcoming| == |ShowsOf(s, r)|
  {
    var shows := ShowList(s, sscan, r);
    var sp := SplitShows(s, shows, now);
    FilterPartition(shows, StartsBefore(s, now));
    DistinctCount(shows);
    assert Elements(shows) == ShowsOf(s, r);
    var both := sp.past + sp.upcoming;
    forall i, j | 0 <= i < j < |both|
      ensures both[i] != both[j]
    {
      if j < |sp.past| || |sp.past| <= i {
      } else {
        assert both[i] in sp.past && both[j] in sp.upcoming;
      }
    }
  }

  /** One show as a detail page lists it: the other party's id, name and
      image, and the start time. */
  datatype ShowEntry = ShowEntry(partnerId: Id, partnerName: Option<string>, partnerImageLink: Option<string>, startTime: int)

  /** The other party of a show of `r`: its artist on a venue page, its
      venue on an artist page. */
  function Partner(r: Ref, sh: Show): Ref {
    match r.kind
    case VenueKind => Ref(ArtistKind, sh.artistId)
    case ArtistKind => Ref(VenueKind, sh.venueId)
  }

  /** Entry `e` names an existing partner of a show of `r`, with that
      partner's current name and image. */
  ghost predicate Describes(s: Store, r: Ref, e: ShowEntry) {
    var p := Ref(if r.kind == VenueKind then ArtistKind else VenueKind, e.partnerId);
    Exists(s, p) && e.partnerName == NameOf(s, p) && e.partnerImageLink == ImageOf(s, p)
  }

  /** The entry for show `sid` of `r`: the show's own partner, described,
      and the show's start time. */
  function EntryOf(s: Store, r: Ref, sid: Id): (e: ShowEntry)
    requires Linked(s) && sid in s.shows
    ensures e.partnerId == Partner(r, s.shows[sid]).id
    ensures Describes(s, r, e)
    ensures e.startTime == s.shows[sid].startTime
  {
    var sh := s.shows[sid];
    var p := Partner(r, sh);
    ShowEntry(p.id, NameOf(s, p), ImageOf(s, p), sh.startTime)
  }

  function Entries(s: Store, r: Ref, ids: seq<Id>): (es: seq<ShowEntry>)
    requires Linked(s)
    requires forall i :: 0 <= i < |ids| ==> ids[i] in s.shows
    ensures |es| == |ids|
    ensures forall i :: 0 <= i < |ids| ==> es[i] == EntryOf(s, r, ids[i])
  {
    seq(|ids|, i requires 0 <= i < |ids| => EntryOf(s, r, ids[i]))
  }

  /** The show part of a detail page. */
  datatype Timeline = Timeline(
    pastShows: seq<ShowEntry>,
    upcomingShows: seq<ShowEntry>,
    pastShowsCount: nat,
    upcomingShowsCount: nat)

  ghost function PastSet(s: Store, r: Ref, now: int): set<Id> {
    set sid | sid in s.shows && Belongs(s.shows[sid], r) && s.shows[sid].startTime < now
  }

  ghost function NotPastSet(s: Store, r: Ref, now: int): set<Id> {
    set sid | sid in s.shows && Belongs(s.shows[sid], r) && s.shows[sid].startTime >= now
  }

  /** The entries of past shows all start before `now`, those of upcoming
      shows at or after it, and all of them describe their partner. */
  lemma EntriesOfSplit(s: Store, r: Ref, sp: Split, now: int)
    requires Linked(s)
    requires forall i :: 0 <= i < |sp.past| ==> sp.past[i] in s.shows && s.shows[sp.past[i]].startTime < now
    requires forall i :: 0 <= i < |sp.upcoming| ==> sp.upcoming[i] in s.shows && s.shows[sp.upcoming[i]].startTime >= now
    ensures forall e :: e in Entries(s, r, sp.past) ==> e.startTime < now && Describes(s, r, e)
    ensures forall e :: e in Entries(s, r, sp.upcoming) ==> e.startTime >= now && Describes(s, r, e)
  {
    var past, upcoming := Entries(s, r, sp.past), Entries(s, r, sp.upcoming);
    forall e | e in past
      ensures e.startTime < now && Describes(s, r, e)
    {
      var i :| 0 <= i < |past| && past[i] == e;
    }
    forall e | e in upcoming
      ensures e.startTime >= now && Describes(s, r, e)
    {
      var i :| 0 <= i < |upcoming| && upcoming[i] == e;
    }
  }

  /** The entries of a list holding exactly the shows in `want` are exactly
      the entries of those shows. */
  lemma EntriesListed(s: Store, r: Ref, ids: seq<Id>, want: set<Id>)
    requires Linked(s) && want <= s.shows.Keys
    requires forall i :: 0 <= i < |ids| ==> ids[i] in s.shows
    requires forall sid :: sid in ids <==> sid in want
    ensures forall e :: e in Entries(s, r, ids) <==> exists sid :: sid in want && e == EntryOf(s, r, sid)
  {
    var es := Entries(s, r, ids);
    forall e | e in es
      ensures exists sid :: sid in want && e == EntryOf(s, r, sid)
    {
      var i :| 0 <= i < |es| && es[i] == e;
      assert ids[i] in want;
    }
    forall e | exists sid :: sid in want && e == EntryOf(s, r, sid)
      ensures e in es
    {
      var sid :| sid in want && e == EntryOf(s, r, sid);
      var i :| 0 <= i < |ids| && ids[i] == sid;
      assert es[i] == e;
    }
  }

  /** The past and upcoming shows of `r` with their counts. */
  function TimelineOf(s: Store, sscan: seq<Id>, r: Ref, now: int): (tl: Timeline)
    requires Linked(s) && IsScanOf(sscan, s.shows.Keys)
    ensures tl.pastShowsCount == |tl.pastShows| == |PastSet(s, r, now)|
    ensures tl.upcomingShowsCount == |tl.upcomingShows| == |NotPastSet(s, r, now)|
    ensures tl.pastShowsCount + tl.upcomingShowsCount == |ShowsOf(s, r)|
    ensures forall e :: e in tl.pastShows ==> e.startTime < now && Describes(s, r, e)
    ensures forall e :: e in tl.upcomingShows ==> e.startTime >= now && Describes(s, r, e)
    ensures forall e :: e in tl.pastShows <==> exists sid :: sid in PastSet(s, r, now) && e == EntryOf(s, r, sid)
    ensures forall e :: e in tl.upcomingShows <==> exists sid :: sid in NotPastSet(s, r, now) && e == EntryOf(s, r, sid)
    ensures exists ids ::
      && IsScanOf(ids, PastSet(s, r, now))
      && (forall i :: 0 <= i < |ids| ==> ids[i] in s.shows)
      && tl.pastShows == Entries(s, r, ids)
    ensures exists ids ::
      && IsScanOf(ids, NotPastSet(s, r, now))
      && (forall i :: 0 <= i < |ids| ==> ids[i] in s.shows)
      && tl.upcomingShows == Entries(s, r, ids)
  {
    var sp := SplitShows(s, ShowList(s, sscan, r), now);
    SplitHoldsSets(s, sscan, r, now);
    EntriesOfSplit(s, r, sp, now);
    EntriesListed(s, r, sp.past, PastSet(s, r, now));
    EntriesListed(s, r, sp.upcoming, NotPastSet(s, r, now));
    var past := Entries(s, r, sp.past);
    var upcoming := Entries(s, r, sp.upcoming);
    Timeline(past, upcoming, |past|, |upcoming|)
  }

  /** The two halves of the split list exactly the past and the not-past
      shows of `r`, as many as there are of each. */
  lemma SplitHoldsSets(s: Store, sscan: seq<Id>, r: Ref, now: int)
    requires IsScanOf(sscan, s.shows.Keys)
    ensures var sp := SplitShows(s, ShowList(s, sscan, r), now);
      && (forall i :: 0 <= i < |sp.past| ==> sp.past[i] in s.shows && s.shows[sp.past[i]].startTime < now)
      && (forall i :: 0 <= i < |sp.upcoming| ==> sp.upcoming[i] in s.shows && s.shows[sp.upcoming[i]].startTime >= now)
      && (forall sid :: sid in sp.past <==> sid in PastSet(s, r, now))
      && (forall sid :: sid in sp.upcoming <==> sid in NotPastSet(s, r, now))
      && IsScanOf(sp.past, PastSet(s, r, now))
      && IsScanOf(sp.upcoming, NotPastSet(s, r, now))
      && |sp.past| == |PastSet(s, r, now)|
      && |sp.upcoming| == |NotPastSet(s, r, now)|
      && |sp.past| + |sp.upcoming| == |ShowsOf(s, r)|
  {
    var sp := SplitShows(s, ShowList(s, sscan, r), now);
    SplitIsPartition(s, sscan, r, now);
    assert Distinct(sp.past) && Distinct(sp.upcoming);
    forall sid
      ensures sid in sp.past <==> sid in PastSet(s, r, now)
      ensures sid in sp.upcoming <==> sid in NotPastSet(s, r, now)
    {
    }
    assert IsScanOf(sp.past, PastSet(s, r, now));
    assert IsScanOf(sp.upcoming, NotPastSet(s, r, now));
    CountSplit(s, sp, r, now);
  }

  /** A split whose halves list exactly the past and the not-past shows of
      `r`, each once, has the sizes of those sets. */
  lemma CountSplit(s: Store, sp: Split, r: Ref, now: int)
    requires Distinct(sp.past) && Distinct(sp.upcoming)
    requires forall sid :: sid in sp.past <==> sid in ShowsOf(s, r) && s.shows[sid].startTime < now
    requires forall sid :: sid in sp.upcoming <==> sid in ShowsOf(s, r) && s.shows[sid].startTime >= now
    ensures |sp.past| == |PastSet(s, r, now)|
    ensures |sp.upcoming| == |NotPastSet(s, r, now)|
  {
    DistinctCount(sp.past);
    DistinctCount(sp.upcoming);
    assert Elements(sp.past) == PastSet(s, r, now);
    assert Elements(sp.upcoming) == NotPastSet(s, r, now);
  }

  /** A detail page: the record itself and its shows. */
  datatype Detail<R> = Detail(id: Id, record: R, shows: Timeline)

  /** `show_venue(venue_id)`: NotFound for an unknown id; otherwise the venue
      with its shows split at `now`. */
  function VenueDetail(s: Store, id: Id, sscan: seq<Id>, now: int): (d: Result<Detail<Venue>>)
    requires Linked(s) && IsScanOf(sscan, s.shows.Keys)
    ensures d.Failure? <==> id !in s.venues
    ensures d.Failure? ==> d.error == NotFound
    ensures d.Success? ==>
      && d.value.id == id
      && d.value.record == s.venues[id]
      && d.value.shows.pastShowsCount + d.value.shows.upcomingShowsCount == |ShowsOf(s, Ref(VenueKind, id))|
      && d.value.shows == TimelineOf(s, sscan, Ref(VenueKind, id), now)
  {
    if id !in s.venues then Failure(NotFound)
    else Success(Detail(id, s.venues[id], TimelineOf(s, sscan, Ref(VenueKind, id), now)))
  }

  /** `show_artist(artist_id)`: NotFound for an unknown id; otherwise the
      artist with its shows split at `now`. */
  function ArtistDetail(s: Store, id: Id, sscan: seq<Id>, now: int): (d: Result<Detail<Artist>>)
    requires Linked(s) && IsScanOf(sscan, s.shows.Keys)
    ensures d.Failure? <==> id !in s.artists
    ensures d.Failure? ==> d.error == NotFound
    ensures d.Success? ==>
      && d.value.id == id
      && d.value.record == s.artists[id]
      && d.value.shows.pastShowsCount + d.value.shows.upcomingShowsCount == |ShowsOf(s, Ref(ArtistKind, id))|
      && d.value.shows == TimelineOf(s, sscan, Ref(ArtistKind, id), now)
  {
    if id !in s.artists then Failure(NotFound)
    else Success(Detail(id, s.artists[id], TimelineOf(s, sscan, Ref(ArtistKind, id), now)))
  }

  /** The listing counts upcoming shows with `>` and the detail page with
      "not `<`": the two agree except for shows starting exactly at `now`,
      which only the detail page calls upcoming. */
  lemma BoundaryShowsDiffer(s: Store, sscan: seq<Id>, r: Ref, now: int)
    requires Linked(s) && IsScanOf(sscan, s.shows.Keys)
    ensures var tl := TimelineOf(s, sscan, r, now);
      && NumUpcomingShows(s, sscan, r, now) <= tl.upcomingShowsCount
      && (NumUpcomingShows(s, sscan, r, now) == tl.upcomingShowsCount <==>
            forall sid :: sid in ShowsOf(s, r) ==> s.shows[sid].startTime != now)
  {
    var up, np := UpcomingSet(s, r, now), NotPastSet(s, r, now);
    assert up <= np;
    SubsetCount(up, np);
    if forall sid :: sid in ShowsOf(s, r) ==> s.shows[sid].startTime != now {
      assert up == np;
    } else {
      var sid :| sid in ShowsOf(s, r) && s.shows[sid].startTime == now;
      assert sid in np - up;
    }
  }

  // ---------------------------------------------------------------------
  // Listings
  // ---------------------------------------------------------------------

  /** One `{id, name}` entry of the artist listing. */
  datatype ArtistRow = ArtistRow(id: Id, name: Option<string>)

  /** `artists()`: one entry per artist, with its id and name. */
  function ListArtists(s: Store, ascan: seq<Id>): (rows: seq<ArtistRow>)
    requires IsScanOf(ascan, s.artists.Keys)
    ensures |rows| == |s.artists|
    ensures forall i, j :: 0 <= i < j < |rows| ==> rows[i].id != rows[j].id
    ensures forall row :: row in rows ==> row.id in s.artists && row.name == s.artists[row.id].name
    ensures forall id :: id in s.artists ==> ArtistRow(id, s.artists[id].name) in rows
  {
    ScanCount(ascan, s.artists.Keys);
    var rows := seq(|ascan|, i requires 0 <= i < |ascan| => ArtistRow(ascan[i], s.artists[ascan[i]].name));
    assert forall id :: id in s.artists ==> ArtistRow(id, s.artists[id].name) in rows by {
      forall id | id in s.artists
        ensures ArtistRow(id, s.artists[id].name) in rows
      {
        var i :| 0 <= i < |ascan| && ascan[i] == id;
        assert rows[i] == ArtistRow(id, s.artists[id].name);
      }
    }
    rows
  }

  /** One entry of the show listing. */
  datatype ShowRow = ShowRow(
    venueId: Id,
    venueName: Option<string>,
    artistId: Id,
    artistName: Option<string>,
    artistImageLink: Option<string>,
    startTime: int)

  /** The listing entry of show `sid`. */
  function RowOf(s: Store, sid: Id): (row: ShowRow)
    requires Linked(s) && sid in s.shows
    ensures Show(row.startTime, row.artistId, row.venueId) == s.shows[sid]
    ensures row.venueId in s.venues && row.venueName == s.venues[row.venueId].name
    ensures row.artistId in s.artists && row.artistName == s.artists[row.artistId].name
    ensures row.artistImageLink == s.artists[row.artistId].imageLink
  {
    var sh := s.shows[sid];
    ShowRow(sh.venueId, s.venues[sh.venueId].name, sh.artistId,
            s.artists[sh.artistId].name, s.artists[sh.artistId].imageLink, sh.startTime)
  }

  /** `shows()`: one entry per show, naming the show's own venue and artist. */
  function ListShows(s: Store, sscan: seq<Id>): (rows: seq<ShowRow>)
    requires Linked(s) && IsScanOf(sscan, s.shows.Keys)
    ensures |rows| == |sscan| == |s.shows|
    ensures forall i :: 0 <= i < |rows| ==> rows[i] == RowOf(s, sscan[i])
    ensures forall sid :: sid in s.shows ==> RowOf(s, sid) in rows
  {
    ScanCount(sscan, s.shows.Keys);
    var rows := seq(|sscan|, i requires 0 <= i < |sscan| => RowOf(s, sscan[i]));
    assert forall sid :: sid in s.shows ==> RowOf(s, sid) in rows by {
      forall sid | sid in s.shows
        ensures RowOf(s, sid) in rows
      {
        var i :| 0 <= i < |sscan| && sscan[i] == sid;
        assert rows[i] == RowOf(s, sid);
      }
    }
    rows
  }
}

=== FILE: text.dfy ===
/** Case-insensitive pattern matching as the database performs it for
    `name ILIKE '%term%'`, with ASCII case folding. */
module Text {

  /** ASCII lower-casing of one character; every other character is kept. */
  function LowerChar(c: char): char {
    if 'A' <= c <= 'Z' then (c as int + 32) as char else c
  }

  /** ASCII lower-casing of a string, character by character. */
  function Lower(s: string): (r: string)
    ensures |r| == |s|
    ensures forall i :: 0 <= i < |s| ==> r[i] == LowerChar(s[i])
  {
    seq(|s|, i requires 0 <= i < |s| => LowerChar(s[i]))
  }

  /** `needle` occurs in `hay` starting at position `k`. */
  ghost predicate OccursAt(hay: string, needle: string, k: int) {
    0 <= k && k + |needle| <= |hay| && hay[k..k + |needle|] == needle
  }

  /** `needle` is a substring of `hay`. */
  ghost predicate Contains(hay: string, needle: string) {
    exists k :: OccursAt(hay, needle, k)
  }

  /** The three characters a LIKE pattern gives a meaning to: the wildcards
      `%` and `_` and the default escape character `\`. */
  predicate IsLiteral(t: string) {
    forall i :: 0 <= i < |t| ==> t[i] != '%' && t[i] != '_' && t[i] != '\\'
  }

  /** `s ILIKE p`: `%` matches any run of characters, `_` exactly one, `\`
      makes the next pattern character literal, and every other character
      matches itself up to ASCII case. The database rejects a pattern that
      ends in a lone `\`; no pattern of the form `%term%` does, and here such
      a pattern matches nothing. */
  function ILike(s: string, p: string): bool
    decreases |s| + |p|
  {
    if p == [] then s == []
    else if p[0] == '%' then ILike(s, p[1..]) || (s != [] && ILike(s[1..], p))
    else if s == [] then false
    else if p[0] == '_' then ILike(s[1..], p[1..])
    else if p[0] == '\\' then
      |p| >= 2 && LowerChar(s[0]) == LowerChar(p[1]) && ILike(s[1..], p[2..])
    else LowerChar(s[0]) == LowerChar(p[0]) && ILike(s[1..], p[1..])
  }

  /** The pattern the search handlers build around a search term. */
  function SearchPattern(term: string): string {
    "%" + term + "%"
  }

  /** Lower-casing commutes with taking a slice. */
  lemma LowerSlice(s: string, i: int, j: int)
    requires 0 <= i <= j <= |s|
    ensures Lower(s)[i..j] == Lower(s[i..j])
  {
  }

  /** A lone `%` matches every string. */
  lemma {:induction false} PercentMatchesAll(s: string)
    ensures ILike(s, "%")
  {
    assert "%"[1..] == "";
    if s != [] {
      PercentMatchesAll(s[1..]);
    }
  }

  /** A leading `%` lets the rest of the pattern match any suffix. */
  lemma {:induction false} LeadingPercent(s: string, q: string)
    ensures ILike(s, "%" + q) <==> exists k :: 0 <= k <= |s| && ILike(s[k..], q)
  {
    var p := "%" + q;
    assert p[0] == '%' && p[1..] == q;
    assert s[0..] == s;
    if s != [] {
      LeadingPercent(s[1..], q);
      if ILike(s, p) {
        if !ILike(s, q) {
          var k :| 0 <= k <= |s| - 1 && ILike(s[1..][k..], q);
          assert s[1..][k..] == s[k + 1..];
        }
      } else {
        forall k | 0 <= k <= |s|
          ensures !ILike(s[k..], q)
        {
          if k > 0 {
            assert s[1..][k - 1..] == s[k..];
          }
        }
      }
    }
  }

  /** A literal prefix of a pattern matches exactly the strings that start
      with it up to case. */
  lemma {:induction false} LiteralPrefix(s: string, t: string, rest: string)
    requires IsLiteral(t)
    ensures ILike(s, t + rest) <==>
              |t| <= |s| && Lower(s[..|t|]) == Lower(t) && ILike(s[|t|..], rest)
  {
    if t == [] {
      assert t + rest == rest;
      assert s[0..] == s;
      assert Lower(s[..0]) == Lower(t);
    } else {
      var p := t + rest;
      assert p[0] == t[0] && p[1..] == t[1..] + rest;
      assert IsLiteral(t[1..]) by {
        forall i | 0 <= i < |t| - 1
          ensures t[1..][i] != '%' && t[1..][i] != '_' && t[1..][i] != '\\'
        {
          assert t[1..][i] == t[i + 1];
        }
      }
      if s != [] {
        LiteralPrefix(s[1..], t[1..], rest);
        if |t| <= |s| {
          assert s[1..][..|t| - 1] == s[1..|t|];
          assert s[1..][|t| - 1..] == s[|t|..];
          var a, b := Lower(s[..|t|]), Lower(t);
          var a', b' := Lower(s[1..|t|]), Lower(t[1..]);
          assert a == [a[0]] + a';
          assert b == [b[0]] + b';
          assert a == b <==> a[0] == b[0] && a' == b';
        }
      }
    }
  }

  /** For a term free of LIKE's special characters, `name ILIKE '%term%'`
      holds exactly when the lower-cased term is a substring of the
      lower-cased name. */
  lemma SearchPatternMeansSubstring(name: string, term: string)
    requires IsLiteral(term)
    ensures ILike(name, SearchPattern(term)) <==> Contains(Lower(name), Lower(term))
  {
    var q := term + "%";
    assert SearchPattern(term) == "%" + q;
    LeadingPercent(name, q);
    forall k | 0 <= k <= |name|
      ensures ILike(name[k..], q) <==> OccursAt(Lower(name), Lower(term), k)
    {
      LiteralPrefix(name[k..], term, "%");
      if k + |term| <= |name| {
        PercentMatchesAll(name[k..][|term|..]);
        assert name[k..][..|term|] == name[k..k + |term|];
        LowerSlice(name, k, k + |term|);
      }
    }
    if ILike(name, SearchPattern(term)) {
      var k :| 0 <= k <= |name| && ILike(name[k..], q);
      assert OccursAt(Lower(name), Lower(term), k);
    }
    if Contains(Lower(name), Lower(term)) {
      var k :| OccursAt(Lower(name), Lower(term), k);
      assert ILike(name[k..], q);
    }
  }

  /** The default search term `''` matches every name. */
  lemma EmptyTermMatchesAll(name: string)
    ensures ILike(name, SearchPattern(""))
  {
    SearchPatternMeansSubstring(name, "");
    assert OccursAt(Lower(name), Lower(""), 0);
  }

  /** The search for "Hop" finds "The Musical Hop", and so does "hop". */
  lemma HopFindsTheMusicalHop()
    ensures ILike("The Musical Hop", SearchPattern("Hop"))
    ensures ILike("The Musical Hop", SearchPattern("hop"))
  {
    var name := "The Musical Hop";
    SearchPatternMeansSubstring(name, "Hop");
    SearchPatternMeansSubstring(name, "hop");
    assert Lower(name)[12..15] == "hop";
    assert OccursAt(Lower(name), Lower("Hop"), 12);
    assert OccursAt(Lower(name), Lower("hop"), 12);
  }
}

=== FILE: wrappers.dfy ===
/** Optional values and request outcomes shared by the whole model. */
module Wrappers {

  /** A value that may be absent: a nullable column, a missing form field. */
  datatype Option<+T> = None | Some(value: T)

  /** The ways a request against the data layer can fail. */
  datatype Error =
    | NotFound             // a lookup by id found no record
    | ValidationFailure    // a value the database refuses: too long, holding NUL, missing, not a number
    | ConstraintViolation  // a foreign key naming a record that does not exist
    | SequenceExhausted    // the table's id sequence has no value left
    | StorageUnavailable   // the database could not run or commit the transaction

  /** The outcome of a request: a value on success, or the kind of failure. */
  datatype Result<+T> = Success(value: T) | Failure(error: Error)
}
